=== FILE: README.md ===
# serveFilePartial in Dafny

A model of `ServeFilePartial.inc.php`, a PHP helper that sends a local file
over HTTP and honours a single byte range from the `Range` request header (a
subset of sections 2.1, 4.1 and 4.2 of RFC 7233: `bytes=N-M` and `bytes=N-`,
no suffix ranges, no multiple ranges, no 416 of section 4.4).

It models four pieces, one module each:

- `RangeParse` (`range_parse.dfy`): `parseRangeHeader`. The pattern
  `/bytes=(\d+)-(\d+)?/i` becomes a leftmost search for a case-insensitive
  `bytes=`, a maximal run of digits and `-`, followed by an optional maximal
  run of digits. The function returns the span and the header calls it makes:
  the 206 status line and `Content-Range`. The module also has a reader that
  turns a `Content-Range` line back into its three numbers.
- `Selection` (`selection.dfy`): the choice of interval in
  `serveFilePartial`. `SelectAsWritten` models line 8 literally.
  `SelectIntended` is the evident intent (see Findings).
- `ChunkedCopy` (`chunked_copy.dfy`): the `rangeOutput` loop, over a file
  given as a byte sequence and an offset.
- `Headers` (`headers.dfy`): `setHeader` without its `Expires` line. It also
  models PHP's header list as a sequence of `header` / `header_remove` calls
  applied to a state.

`Serve` (`serve.dfy`) puts these together into `serveFilePartial`, as written
and as intended. `Text` holds digits, decimal values, `%d` rendering and ASCII
case folding. `Optional` holds the option type.

Some PHP semantics are written out:

- In `!$result = f()` the `!` applies to the assignment.
- Reading `[0]` out of `false` gives null, which counts as 0 in arithmetic.
  The notice or warning PHP raises for that read is not modelled (see Left out).
- For a 0-byte file the end bound is -1, so interval ends are `int`.
- `empty("0")` is true, so a title of `"0"` is replaced by the base name.
- `fread` on a plain file returns what is asked for or what is left, and
  nothing at or past end of file.

Three behaviours of the code are worth knowing before reading the contracts:

- The comment at line 63 of `ServeFilePartial.inc.php` says the end of the
  range "can never go beyond the file size", but lines 64-68 only read the
  number; nothing clamps it, and nothing checks it against the start. The
  model keeps the end exactly as read.
- The pattern at line 58 reads only the first range in the header. RFC 7233
  (section 2.1) allows a list of ranges, but `bytes=0-99,200-299` is read as
  the single span (0, 99) and the rest is ignored.
- As written, a range that does not parse serves one byte, not the whole
  file (see Findings).
- Even with the selection fixed, a reversed span is served as parsed:
  `bytes=10-5` gives byteRange -4, so `Content-Length: -4` is sent with an
  empty body. This happens whenever N > M + 1, and for `bytes=N-` with
  N > 0 on an empty file. The code has no 416 response for it.

The defaults of line 3 are the caller's business: `$fileTitle = null` is
given to the model as the empty title, which `empty()` replaces by the base
name, and `$contentType = 'application/octet-stream'` is passed in as any
other content type.

## Model

| member | source | states |
|---|---|---|
| RangeParse.MatchAt | ServeFilePartial.inc.php:58 | a match needs room for the key, a digit and the `-` |
| RangeParse.MatchAtMeansPattern | ServeFilePartial.inc.php:58 | the pattern matches at a position exactly when the key is there followed by some non-empty digit run and `-`: taking the longest run loses no match |
| RangeParse.FirstMatch | ServeFilePartial.inc.php:58 | the result is the leftmost position where the pattern matches; there is none when no position matches |
| RangeParse.SpanAt | ServeFilePartial.inc.php:60-68 | the start is the number read right after the key; the end is the number read right after the `-`, or fileSize - 1 when no digit follows it |
| RangeParse.ContentRangeName | ServeFilePartial.inc.php:71 | the Content-Range line is named `Content-Range`, a header `setHeader` neither removes nor sets |
| RangeParse.ParseRangeHeader | ServeFilePartial.inc.php:56-77 | parsing fails exactly when `bytes=<digits>-` occurs nowhere, case-insensitively, and then nothing is emitted; on success the emitted calls are the 206 status line followed by Content-Range for the returned span |
| RangeParse.ParseUsesLeftmostMatch | ServeFilePartial.inc.php:58-68 | only the first occurrence of the pattern counts: the span is read at the leftmost match |
| RangeParse.MatchAtStart | ServeFilePartial.inc.php:58 | a range at the very start of the header is the leftmost match, and its start digit run ends at the `-` |
| RangeParse.ParseWellFormed | ServeFilePartial.inc.php:58-68 | `bytes=N-M` parses to exactly (N, M) and `bytes=N-` to (N, fileSize - 1), in any letter case; there is no clamping, no N <= M check, and text after the first range (`,200-299`) is ignored |
| RangeParse.ParseRendered | ServeFilePartial.inc.php:58-68 | the canonical rendering `bytes=N-M` of any two numbers parses back to (N, M) |
| RangeParse.ParseRejectsLetters | ServeFilePartial.inc.php:58-76 | `bytes=abc-def` does not parse |
| RangeParse.ContentRangeStatesSpan | ServeFilePartial.inc.php:70-73 | the Content-Range line reads back as the very numbers the parser returns, plus the file size |
| RangeParse.ReadSpanTextRendered | ServeFilePartial.inc.php:71 | `N-M/T`, rendered with `%d`, reads back as (N, M, T) |
| Selection.ByteRange | ServeFilePartial.inc.php:17 | byteRange is positive exactly when the interval is not empty, i.e. when the offset does not pass the end |
| Selection.SelectAsWritten | ServeFilePartial.inc.php:8-14 | as written, the served interval always starts at offset 0 |
| Selection.SelectIntended | ServeFilePartial.inc.php:8-15 | the intended selection never starts at a negative offset; what it selects is stated by `Selection.IntendedAgreesWithContentRange` |
| Selection.NoRangeServesWholeFile | ServeFilePartial.inc.php:8-17 | without a Range header the interval is [0, fileSize - 1], and byteRange is fileSize |
| Selection.AsWrittenIgnoresParsedRange | ServeFilePartial.inc.php:8-17 | as written, a header that parses still selects the whole file, while the parser's emitted calls carry the parsed span's Content-Range |
| Selection.AsWrittenFailedParseServesOneByte | ServeFilePartial.inc.php:8-17 | as written, a header that does not parse selects [0, 0], so byteRange is 1 |
| Selection.AsWrittenMisreportsRange | ServeFilePartial.inc.php:8-17 | for any `bytes=N-M` whose span is not the whole file, the parser returns (N, M), yet the as-written selection differs from it and its byteRange is fileSize |
| Selection.IntendedAgreesWithContentRange | ServeFilePartial.inc.php:8-17 | the intended selection is the parsed span, its byteRange is last - first + 1, and Content-Range reads back as that span; with no parsable range it is the whole file |
| Selection.AsWrittenDiffersFromIntended | ServeFilePartial.inc.php:8-17 | the two selections differ exactly when a header was sent and either its span is not the whole file, or it did not parse and the file is not one byte long |
| ChunkedCopy.Fread | ServeFilePartial.inc.php:87 | a read returns at most the requested count, as a prefix of what remains, and comes back short only at end of file |
| ChunkedCopy.Available | ServeFilePartial.inc.php:79-109 | the reference span for the copy: `byteRange` bytes at the offset when the file has them, and never more than `byteRange` |
| ChunkedCopy.RangeOutput | ServeFilePartial.inc.php:79-109 | see the list below the table |
| ChunkedCopy.CopyLoop | ServeFilePartial.inc.php:83-108 | the loop ends either with bytePool used up and its state kept, or with a warning after an empty read; then the output is everything left before end of file, the span runs past it, and one more request than chunks was made |
| ChunkedCopy.CopyStep | ServeFilePartial.inc.php:84-103 | an iteration that reads a non-empty chunk keeps the loop's state: output a prefix of the span, requests following bytePool, every chunk but the last full |
| ChunkedCopy.CopyStopped | ServeFilePartial.inc.php:87-97 | an empty read means the span runs past end of file and what was printed is all there is |
| ChunkedCopy.CopyComplete | ServeFilePartial.inc.php:83-100 | when bytePool reaches zero the output is exactly the span, and the chunk count is byteRange / 8192, rounded up |
| ChunkedCopy.CountsStep | ServeFilePartial.inc.php:84-100 | a chunk as long as its request, or one that reaches end of file, keeps the count of full 8192-byte chunks |
| ChunkedCopy.PushRequest | ServeFilePartial.inc.php:84 | a new request of min(8192, bytePool) keeps every request equal to min(8192, what was still owed) |
| ChunkedCopy.PushChunk | ServeFilePartial.inc.php:100-103 | appending a chunk keeps earlier requests consistent with what was owed, and extends the output by the chunk |
| ChunkedCopy.ChunkCount | ServeFilePartial.inc.php:80-84 | with every chunk but the last full, the chunk count is byteRange / 8192, rounded up |
| Headers.Without | ServeFilePartial.inc.php:46-47 | `header_remove` keeps exactly the lines of another name |
| Headers.Apply | ServeFilePartial.inc.php:46-52 | one header call: `header_remove` drops every line of the name and nothing else; `header($line)` leaves the line as the only one of its name and keeps the lines of other names; a status call only sets the status |
| Headers.ApplyAll | ServeFilePartial.inc.php:46-71 | calls applied in order; a sequence without a status call leaves the status as it was |
| Headers.PutKeepsSole | ServeFilePartial.inc.php:49-52 | a line that is the only one of its name stays so when a line of another name is set |
| Headers.RemoveKeepsSole | ServeFilePartial.inc.php:46-47 | it also stays so when the lines of another name are removed |
| Headers.SetHeader | ServeFilePartial.inc.php:44-54 | six calls, none a status line; both removals come before every addition; Accept-Ranges, Content-Type, Content-Disposition and Content-Length are each set |
| Headers.SetHeaderLinesSole | ServeFilePartial.inc.php:44-52 | whatever was set before, after `setHeader` each of its four lines is present and the only one of its name, and the status is untouched |
| Headers.SetHeaderKeepsSole | ServeFilePartial.inc.php:44-52 | a line of a name `setHeader` neither removes nor sets (such as Content-Range) survives it as the only one of its name |
| Headers.CachingHeadersSuppressed | ServeFilePartial.inc.php:44-54 | whatever headers were set before, no Cache-Control or Pragma header survives `setHeader` |
| Headers.ContentLengthIsByteRange | ServeFilePartial.inc.php:52 | whatever was set before, after `setHeader` the Content-Length line stating byteRange is the only line of its name; it states byteRange, and reads back as byteRange when that is not negative |
| Text.IntToString | ServeFilePartial.inc.php:52 | `%d` rendering: non-empty, a minus sign exactly for negative values, then the shortest digit string of the magnitude |
| Text.NatToString | ServeFilePartial.inc.php:71 | a natural number renders as a non-empty digit string with no leading zero |
| RangeParse.ParseZeroStart | ServeFilePartial.inc.php:58-68 | `bytes=` followed by only zeros and `-` starts at byte 0 and runs to fileSize - 1 |
| Text.ValueZero | ServeFilePartial.inc.php:60-65 | the number `(int)` reads from a digit string (`Text.Value`) is zero exactly when every digit is `0` |
| Text.ValueOfNatToString | ServeFilePartial.inc.php:60-65 | reading a rendered number back as `(int)` does gives the number |
| Text.ValueIgnoresLeadingZero | ServeFilePartial.inc.php:60-65 | a leading zero does not change the number `(int)` reads, so `bytes=007-` starts at 7 |
| Serve.Title | ServeFilePartial.inc.php:5 | the download name is the given title unless it is `""` or `"0"`; then it is the base name |
| Serve.HeaderCalls | ServeFilePartial.inc.php:8-19 | the response's header calls: the first is the 206 status exactly when a header was sent and parsed, and no later call is a status line |
| Serve.HeaderCallsSetHeaderLines | ServeFilePartial.inc.php:8-19 | whatever was set before, each line `setHeader` adds is the only one of its name in the response |
| Serve.HeaderCallsRangeLines | ServeFilePartial.inc.php:8-19 | with a parsed span the response has status 206 and the parsed Content-Range is the only line of its name; otherwise the status is left as it was |
| Serve.HeaderCallsSuppressCaching | ServeFilePartial.inc.php:44-52 | after the parser's calls and `setHeader`'s, no caching header is left, and Content-Length states byteRange |
| Serve.HeaderCallsContain | ServeFilePartial.inc.php:49-71 | the composed calls hold Content-Length and Content-Disposition; the 206 status and Content-Range appear when a header parsed, and no status call appears when no header was sent |
| Serve.Respond | ServeFilePartial.inc.php:17-21 | the headers are composed for the interval, and the body is the interval copied and cut at end of file; the warning is raised exactly when a positive range runs past the end; a complete body is byteRange long |
| Serve.RespondsWithoutCaching | ServeFilePartial.inc.php:46-47 | whatever the interval, no Cache-Control or Pragma header is left in the response |
| Serve.RespondsWithLength | ServeFilePartial.inc.php:17-19 | the response's only Content-Length states the interval's byteRange, and its only Content-Disposition names the download |
| Serve.RespondsWithRange | ServeFilePartial.inc.php:8-19 | a parsed span is announced by status 206 and its own, sole, Content-Range; otherwise the status is untouched |
| Serve.AsWrittenNoHeader | ServeFilePartial.inc.php:8-21 | as written, with no Range header the whole file is sent, with its length and no status line |
| Serve.AsWrittenParsed | ServeFilePartial.inc.php:8-21 | as written, a header that parses gets 206 and the parsed Content-Range, yet the whole file and the whole file's Content-Length |
| Serve.AsWrittenUnparsed | ServeFilePartial.inc.php:8-21 | as written, a header that does not parse gets Content-Length 1 and the first byte; the copy loop's warning (line 95) is raised only for an empty file |
| Serve.AsWrittenNamesDownload | ServeFilePartial.inc.php:51 | the download name is announced in Content-Disposition |
| Serve.IntendedWholeCase | ServeFilePartial.inc.php:11-21 | without a parsed span, the intended response sends the whole file with its length and no warning |
| Serve.IntendedRangeHeaders | ServeFilePartial.inc.php:8-19 | with a parsed span, the intended response carries that span's Content-Range and a Content-Length of last - first + 1 |
| Serve.IntendedRangeBody | ServeFilePartial.inc.php:8-21 | with a parsed span, the intended body is that span cut at end of file; a span inside the file is sent whole without a warning |
| Serve.CompletedBodyMatchesContentLength | ServeFilePartial.inc.php:17-21 | when the intended copy completes and byteRange is not negative, the body is exactly as long as the Content-Length header says; a negative byteRange (a reversed span) sends an empty body, no warning, and that negative Content-Length |
| Serve.ServeFilePartial | ServeFilePartial.inc.php:3-24 | see the list below the table |
| Serve.ServeFilePartialIntended | ServeFilePartial.inc.php:3-24 | see the list below the table |

`ChunkedCopy.RangeOutput` states that:

- the output is the in-order concatenation of the chunks, and equals the
  available span;
- `byteRange <= 0` gives no output, no reads and no warning;
- a positive range warns exactly when it runs past end of file;
- a copy without a warning is exactly `byteRange` bytes long;
- every read requested min(8192, bytePool) while bytePool was positive;
- every chunk is non-empty, and all but the last are full;
- a complete copy uses byteRange / 8192 chunks, rounded up.

`Serve.ServeFilePartial` states that:

- with no header, it sends the whole file with its length and no status;
- with a header that parses, it sends 206 and the parsed Content-Range, but
  also sends the whole file with the whole file's length;
- with a header that does not parse, it announces and sends one byte, and
  the copy loop's warning (line 95) is raised only on an empty file;
- the download name is in Content-Disposition;
- its header calls are exactly the parser's (when a header was sent)
  followed by `setHeader`'s for the selected interval;
- whatever was set before, no Cache-Control or Pragma header is left, the
  only Content-Length states the selected byteRange and the only
  Content-Disposition names the download;
- with a header that parses, the final status is 206 and the only
  Content-Range is the parsed span's; otherwise the status is untouched.

`Serve.ServeFilePartialIntended` states that:

- without a parsed span, it sends the whole file with its length;
- with a parsed span, it sends Content-Range and Content-Length for that
  span, and the body is the span cut at end of file. When the span lies
  inside the file, the body is exactly the span and there is no warning;
- when byteRange is not negative, a completed body matches Content-Length;
  a reversed span sends an empty body under its negative Content-Length;
- its header calls, and the final headers, are as for
  `Serve.ServeFilePartial` but for the intended interval.

## Left out

- `checkFile` and `openFile`: filesystem I/O. The file is given as its contents and the offset into them; a negative offset never occurs, so `fseek` failure is not modelled.
- The `Expires` header: its value comes from the wall clock and date formatting.
- `basename`: a path library call; its result is an input to `Serve.Title`.
- PHP's runtime effects: `header`, `header_remove`, `print`, `ob_flush`/`flush`, `trigger_error`, `exit`. They become returned header calls, an accumulated byte sequence and a warning flag. Flushing has no counterpart.
- The PHP runtime's own checks inside `header()`, such as rejecting line breaks in a header value, and the effect of headers already sent.
- `(int)` overflow on very long digit strings: numbers are unbounded.
- Suffix ranges, multiple ranges and status 416: the code does not implement them.
- Serve.ServeFilePartial: `warned` is only the `trigger_error` of line 95. Other diagnostics PHP raises are not modelled. On a failed parse, lines 9-10 read `$result[0]` and `$result[1]` out of `false`, which raises "Trying to access array offset on value of type bool" twice: a notice on PHP 7.4 and a warning on PHP 8. PHP 8.1 and later also raise a deprecation at line 38 for `fseek` with a null offset. The model keeps only the resulting values (0 for both bounds).
- Serve.AsWrittenUnparsed: its "warns only on an empty file" is about the copy loop's warning (line 95). The line 9-10 notices or warnings and the line-38 deprecation, raised on every failed parse, are not modelled.
- Headers.Apply: `header($line)` is modelled as storing the line verbatim. Two rewrites the PHP runtime makes are not modelled: it trims trailing whitespace from the line, and it gives a `Content-Type` value that starts with `text/` and has no `charset=` the configured default charset (`text/plain` becomes `text/plain;charset=UTF-8`).
- Headers.SetHeaderLinesSole: inherits that gap. Its Content-Type conjunct describes PHP's header list only for a content type that neither starts with `text/` without a charset nor ends in whitespace. The other three lines end in a fixed character or a digit and need neither rewrite.
- Serve.HeaderCallsSetHeaderLines: inherits the same Content-Type gap from `Headers.Apply`.
- ChunkedCopy.Fread: read errors (`fread` returning `false`) and a file that changes between `filesize()` and the copy are not modelled. A read comes back empty only at end of file, so `warned <==> offset + byteRange > |file|` and "the copy loop warns only on an empty file" hold only under that assumption.
- Headers.ContentLengthIsByteRange: when byteRange is negative, it states the exact line but does not read the minus sign back.
- RangeParse.ContentRangeStatesSpan: it is stated only for an end that is not negative. The one negative end, -1, arises from `bytes=N-` on an empty file.

## Findings

| source | as written | input that shows it | evidently intended | confidence | as-written member | corrected member |
|---|---|---|---|---|---|---|
| ServeFilePartial.inc.php:8 | `!$result = parseRangeHeader($fileSize)` negates the assigned value, so a parsed range takes the else branch and the whole file is served; a failed parse reads both bounds out of `false` and serves one byte | `Range: bytes=100-199` on a 1000-byte file: 206 with `Content-Range: bytes 100-199/1000`, but `Content-Length: 1000` and all 1000 bytes | `($result = parseRangeHeader($fileSize)) !== false`, so that the parsed span is served with its own length, and the whole file is served otherwise | not executed | Selection.AsWrittenMisreportsRange | Selection.IntendedAgreesWithContentRange |

=== FILE: chunked_copy.dfy ===
/**
 `rangeOutput`: copies `byteRange` bytes from an open file to the client in
 chunks of at most 8192 bytes, each chunk asking for `min(8192, bytePool)`
 bytes and lowering `bytePool` by what actually came back. A read that
 returns nothing ends the copy with a warning.

 The file is a byte sequence and the handle's position an offset into it;
 `fread` on a plain file returns the requested count, or what is left before
 end of file, or nothing at or past end of file. The client output is the
 accumulated sequence of bytes printed; flushing is not modelled.
 */
module ChunkedCopy {

  const BufferSize: nat := 512 * 16

  function Min(a: int, b: int): int {
    if a <= b then a else b
  }

  /** `fread($handle, $want)` with the handle at `pos`: a prefix of what remains, short only at end of file. */
  function Fread(src: seq<bv8>, pos: nat, want: nat): (chunk: seq<bv8>)
    ensures |chunk| <= want
    ensures |chunk| > 0 ==> pos + |chunk| <= |src| && chunk == src[pos..pos + |chunk|]
    ensures |chunk| < want ==> pos + |chunk| >= |src|
  {
    if pos >= |src| then [] else src[pos..pos + Min(want, |src| - pos)]
  }

  /** The chunks printed, in order, as one byte sequence. */
  function Flatten(chunks: seq<seq<bv8>>): seq<bv8>
    decreases |chunks|
  {
    if |chunks| == 0 then [] else Flatten(chunks[..|chunks| - 1]) + chunks[|chunks| - 1]
  }

  lemma FlattenPush(chunks: seq<seq<bv8>>, c: seq<bv8>)
    ensures Flatten(chunks + [c]) == Flatten(chunks) + c
  {
    assert (chunks + [c])[..|chunks|] == chunks;
  }

  /**
   The bytes a copy of `byteRange` bytes from `offset` can deliver: the span
   itself, cut short where the file ends.
   */
  function Available(src: seq<bv8>, offset: nat, byteRange: int): (r: seq<bv8>)
    ensures byteRange > 0 && offset + byteRange <= |src| ==> r == src[offset..offset + byteRange]
    ensures |r| <= if byteRange > 0 then byteRange else 0
  {
    if byteRange <= 0 || offset >= |src| then [] else src[offset..Min(offset + byteRange, |src|)]
  }

  /** Bytes still owed after the first k chunks. */
  function Owed(byteRange: int, chunks: seq<seq<bv8>>, k: nat): int
    requires k <= |chunks|
  {
    byteRange - |Flatten(chunks[..k])|
  }

  /**
   Every read k asked for `min(8192, bytePool)` bytes while `bytePool`, the
   count still owed after the first k chunks, was positive.
   */
  predicate RequestsFollowPool(byteRange: int, chunks: seq<seq<bv8>>, requests: seq<nat>) {
    forall k :: 0 <= k < |requests| && k <= |chunks| ==>
      0 < Owed(byteRange, chunks, k) && requests[k] == Min(BufferSize, Owed(byteRange, chunks, k))
  }

  /** Each chunk is non-empty and no larger than its request; all but the last fill the buffer. */
  predicate ChunkShape(chunks: seq<seq<bv8>>, requests: seq<nat>)
    requires |chunks| <= |requests|
  {
    && (forall k :: 0 <= k < |chunks| ==> 0 < |chunks[k]| <= requests[k])
    && (forall k :: 0 <= k < |chunks| - 1 ==> |chunks[k]| == BufferSize)
  }

  /** `out` is the start of the span at `offset`. */
  predicate ReadFrom(src: seq<bv8>, offset: nat, out: seq<bv8>) {
    |out| > 0 ==> offset + |out| <= |src| && out == src[offset..offset + |out|]
  }

  lemma PushRequest(byteRange: int, chunks: seq<seq<bv8>>, requests: seq<nat>, request: nat)
    requires RequestsFollowPool(byteRange, chunks, requests) && |requests| == |chunks|
    requires 0 < Owed(byteRange, chunks, |chunks|) && request == Min(BufferSize, Owed(byteRange, chunks, |chunks|))
    ensures RequestsFollowPool(byteRange, chunks, requests + [request])
  {
  }

  lemma PushChunk(byteRange: int, chunks: seq<seq<bv8>>, requests: seq<nat>, chunk: seq<bv8>)
    requires RequestsFollowPool(byteRange, chunks, requests) && |requests| == |chunks| + 1
    ensures RequestsFollowPool(byteRange, chunks + [chunk], requests)
    ensures Flatten(chunks + [chunk]) == Flatten(chunks) + chunk
  {
    forall k | 0 <= k <= |chunks|
      ensures Owed(byteRange, chunks + [chunk], k) == Owed(byteRange, chunks, k)
    {
      assert (chunks + [chunk])[..k] == chunks[..k];
    }
    FlattenPush(chunks, chunk);
  }

  lemma PushShape(chunks: seq<seq<bv8>>, requests: seq<nat>, chunk: seq<bv8>)
    requires |requests| == |chunks| + 1 && ChunkShape(chunks, requests)
    requires 0 < |chunk| <= requests[|chunks|]
    requires |chunks| > 0 ==> |chunks[|chunks| - 1]| == BufferSize
    ensures ChunkShape(chunks + [chunk], requests)
  {
  }

  lemma ExtendRead(src: seq<bv8>, offset: nat, out: seq<bv8>, chunk: seq<bv8>)
    requires ReadFrom(src, offset, out)
    requires |chunk| > 0 ==> offset + |out| + |chunk| <= |src| && chunk == src[offset + |out|..offset + |out| + |chunk|]
    ensures ReadFrom(src, offset, out + chunk)
  {
    if |chunk| > 0 {
      assert src[offset..offset + |out| + |chunk|] == src[offset..offset + |out|] + src[offset + |out|..offset + |out| + |chunk|];
    }
  }

  /** A read prefix that is complete, or that reached end of file, is all there is to deliver. */
  lemma ReadFromIsAvailable(src: seq<bv8>, offset: nat, byteRange: int, out: seq<bv8>)
    requires byteRange > 0 && ReadFrom(src, offset, out) && |out| <= byteRange
    requires |out| == byteRange || offset + |out| >= |src|
    ensures out == Available(src, offset, byteRange)
  {
  }

  /** With c - 1 full buffers sent before the last chunk, c is the rounded-up quotient. */
  lemma ChunkCount(n: int, c: int)
    requires (c - 1) * BufferSize < n <= c * BufferSize
    ensures c == (n + BufferSize - 1) / BufferSize
  {
  }

  /**
   What holds between iterations of the copy loop, once `out` has been printed
   in `chunks` after `requests`; `byteRange - |out|` is `bytePool`.
   */
  predicate CopyState(src: seq<bv8>, offset: nat, byteRange: int, out: seq<bv8>, chunks: seq<seq<bv8>>, requests: seq<nat>) {
    && (byteRange > 0 ==> |out| <= byteRange)
    && (byteRange <= 0 ==> out == [] && requests == [])
    && out == Flatten(chunks)
    && ReadFrom(src, offset, out)
    && |requests| == |chunks|
    && RequestsFollowPool(byteRange, chunks, requests)
    && ChunkShape(chunks, requests)
    && ChunkCounts(|src|, offset, byteRange, |out|, chunks)
  }

  /**
   How many chunks `printed` bytes took: while the copy goes on every chunk
   filled the buffer, and once it is done only the last one may be short.
   */
  predicate ChunkCounts(srcSize: nat, offset: nat, byteRange: int, printed: nat, chunks: seq<seq<bv8>>) {
    && (printed < byteRange && offset + printed < srcSize ==> printed == |chunks| * BufferSize)
    && (printed < byteRange && offset + printed < srcSize && |chunks| > 0 ==> |chunks[|chunks| - 1]| == BufferSize)
    && (printed == byteRange && |chunks| > 0 ==> (|chunks| - 1) * BufferSize < byteRange <= |chunks| * BufferSize)
  }

  /** A chunk as long as its request, or one that reaches end of file, keeps the counts. */
  lemma CountsStep(srcSize: nat, offset: nat, byteRange: int, printed: nat, chunks: seq<seq<bv8>>, buffer: seq<bv8>)
    requires ChunkCounts(srcSize, offset, byteRange, printed, chunks)
    requires printed < byteRange && 0 < |buffer| <= Min(BufferSize, byteRange - printed)
    requires offset + printed + |buffer| <= srcSize
    requires |buffer| < Min(BufferSize, byteRange - printed) ==> offset + printed + |buffer| >= srcSize
    ensures ChunkCounts(srcSize, offset, byteRange, printed + |buffer|, chunks + [buffer])
  {
    var c := |chunks|;
    assert (c + 1) * BufferSize == c * BufferSize + BufferSize;
    assert printed == c * BufferSize;
  }

  /** One iteration that reads a non-empty chunk keeps the loop's state. */
  lemma CopyStep(src: seq<bv8>, offset: nat, byteRange: int, out: seq<bv8>, chunks: seq<seq<bv8>>, requests: seq<nat>, buffer: seq<bv8>)
    requires CopyState(src, offset, byteRange, out, chunks, requests)
    requires |out| < byteRange
    requires buffer == Fread(src, offset + |out|, Min(BufferSize, byteRange - |out|)) && |buffer| > 0
    ensures CopyState(src, offset, byteRange, out + buffer, chunks + [buffer], requests + [Min(BufferSize, byteRange - |out|)])
  {
    var request := Min(BufferSize, byteRange - |out|);
    var out', chunks', requests' := out + buffer, chunks + [buffer], requests + [request];
    assert chunks[..|chunks|] == chunks;
    PushRequest(byteRange, chunks, requests, request);
    PushChunk(byteRange, chunks, requests', buffer);
    assert RequestsFollowPool(byteRange, chunks', requests') && out' == Flatten(chunks');
    PushShape(chunks, requests', buffer);
    assert ChunkShape(chunks', requests');
    ExtendRead(src, offset, out, buffer);
    assert ReadFrom(src, offset, out');
    CountsStep(|src|, offset, byteRange, |out|, chunks, buffer);
    assert ChunkCounts(|src|, offset, byteRange, |out'|, chunks');
  }

  /** When `bytePool` reaches zero the whole span has been printed. */
  lemma CopyComplete(src: seq<bv8>, offset: nat, byteRange: int, out: seq<bv8>, chunks: seq<seq<bv8>>, requests: seq<nat>)
    requires CopyState(src, offset, byteRange, out, chunks, requests)
    requires byteRange - |out| <= 0
    ensures out == Available(src, offset, byteRange)
    ensures byteRange > 0 ==> offset + byteRange <= |src|
    ensures |out| == if byteRange > 0 then byteRange else 0
    ensures byteRange > 0 ==> |chunks| == (byteRange + BufferSize - 1) / BufferSize
  {
    if byteRange > 0 {
      ReadFromIsAvailable(src, offset, byteRange, out);
      ChunkCount(byteRange, |chunks|);
    }
  }

  /** An empty read leaves the printed part short of the span, which runs past end of file. */
  lemma CopyStopped(src: seq<bv8>, offset: nat, byteRange: int, out: seq<bv8>, chunks: seq<seq<bv8>>, requests: seq<nat>, request: nat)
    requires CopyState(src, offset, byteRange, out, chunks, requests)
    requires |out| < byteRange && request == Min(BufferSize, byteRange - |out|)
    requires Fread(src, offset + |out|, request) == []
    ensures out == Available(src, offset, byteRange)
    ensures offset + byteRange > |src|
    ensures RequestsFollowPool(byteRange, chunks, requests + [request])
    ensures ChunkShape(chunks, requests + [request])
  {
    assert chunks[..|chunks|] == chunks;
    PushRequest(byteRange, chunks, requests, request);
    ReadFromIsAvailable(src, offset, byteRange, out);
  }

  /** The state before the first iteration. */
  lemma CopyStart(src: seq<bv8>, offset: nat, byteRange: int)
    ensures CopyState(src, offset, byteRange, [], [], [])
  {
  }

  /**
   The `while` loop of `rangeOutput`: it runs until `bytePool` is used up or a
   read comes back empty, which raises the warning.
   */
  method CopyLoop(src: seq<bv8>, offset: nat, byteRange: int)
    returns (out: seq<bv8>, chunks: seq<seq<bv8>>, requests: seq<nat>, warned: bool)
    ensures !warned ==> CopyState(src, offset, byteRange, out, chunks, requests) && byteRange <= |out|
    ensures warned ==>
      && byteRange > 0 && offset + byteRange > |src|
      && out == Flatten(chunks) && out == Available(src, offset, byteRange)
      && |requests| == |chunks| + 1
      && RequestsFollowPool(byteRange, chunks, requests) && ChunkShape(chunks, requests)
  {
    out, chunks, requests, warned := [], [], [], false;
    var bytePool := byteRange;
    CopyStart(src, offset, byteRange);
    while bytePool > 0
      invariant bytePool == byteRange - |out|
      invariant CopyState(src, offset, byteRange, out, chunks, requests)
      decreases bytePool
    {
      var chunkSizeRequested := Min(BufferSize, bytePool);
      var buffer := Fread(src, offset + |out|, chunkSizeRequested);
      if |buffer| == 0 {
        CopyStopped(src, offset, byteRange, out, chunks, requests, chunkSizeRequested);
        requests := requests + [chunkSizeRequested];
        warned := true;
        return;
      }
      CopyStep(src, offset, byteRange, out, chunks, requests, buffer);
      requests := requests + [chunkSizeRequested];
      bytePool := bytePool - |buffer|;
      chunks := chunks + [buffer];
      out := out + buffer;
    }
  }

  /**
   `rangeOutput($handle, $byteRange)` with the handle at `offset`. Returns what
   was printed, the chunks it was printed in, the size asked of every `fread`
   call, and whether the loop stopped on an empty read (the `E_USER_WARNING`
   case).
   */
  method RangeOutput(src: seq<bv8>, offset: nat, byteRange: int)
    returns (out: seq<bv8>, chunks: seq<seq<bv8>>, requests: seq<nat>, warned: bool)
    ensures out == Flatten(chunks)
    ensures out == Available(src, offset, byteRange)
    ensures byteRange <= 0 ==> out == [] && requests == [] && !warned
    ensures byteRange > 0 ==> (warned <==> offset + byteRange > |src|)
    ensures !warned ==> |out| == if byteRange > 0 then byteRange else 0
    ensures |requests| == |chunks| + (if warned then 1 else 0)
    ensures RequestsFollowPool(byteRange, chunks, requests)
    ensures ChunkShape(chunks, requests)
    ensures !warned && byteRange > 0 ==> |chunks| == (byteRange + BufferSize - 1) / BufferSize
  {
    out, chunks, requests, warned := CopyLoop(src, offset, byteRange);
    if !warned {
      CopyComplete(src, offset, byteRange, out, chunks, requests);
    }
  }
}

=== FILE: headers.dfy ===
/**
 Response headers as a sequence of calls into PHP's header API, and a model of
 the header list those calls build: `header($line)` replaces any header of the
 same name (names compare ignoring ASCII case), a status line sets the status,
 and `header_remove($name)` drops every header of that name.

 The `setHeader` helper is modelled without its `Expires` line, whose value
 comes from the wall clock.
 */
module Headers {
  import opened Text
  import opened Optional

  datatype HeaderCall =
    | Status(line: string)
    | Put(line: string)
    | Remove(name: string)

  datatype HeaderState = HeaderState(status: Option<string>, lines: seq<string>)

  /** A header line `Name: value`. */
  function Field(name: string, value: string): string {
    name + ": " + value
  }

  /** The name part of a header line: everything before its first ':'. */
  function Name(line: string): (n: string)
    ensures |n| <= |line| && n == line[..|n|]
    ensures ':' !in n
    ensures |n| < |line| ==> line[|n|] == ':'
  {
    if |line| == 0 || line[0] == ':' then [] else [line[0]] + Name(line[1..])
  }

  lemma {:induction false} NameOfField(name: string, value: string)
    requires ':' !in name
    ensures Name(Field(name, value)) == name
    decreases |name|
  {
    var line := Field(name, value);
    if |name| > 0 {
      assert line[0] == name[0];
      assert line[1..] == Field(name[1..], value);
      NameOfField(name[1..], value);
    } else {
      assert line[0] == ':';
    }
  }

  /** No line of `lines` carries the header name `name`. */
  predicate Absent(lines: seq<string>, name: string) {
    forall l :: l in lines ==> !SameIgnoringCase(Name(l), name)
  }

  /** The lines whose name differs from `name`. */
  function Without(lines: seq<string>, name: string): (r: seq<string>)
    ensures forall l :: l in r <==> l in lines && !SameIgnoringCase(Name(l), name)
    ensures |r| <= |lines|
  {
    if |lines| == 0 then []
    else (if SameIgnoringCase(Name(lines[0]), name) then [] else [lines[0]]) + Without(lines[1..], name)
  }

  /** The line `l` is present and no other line has a name equal to its name up to case. */
  predicate Sole(lines: seq<string>, l: string) {
    l in lines && forall m :: m in lines && SameIgnoringCase(Name(m), Name(l)) ==> m == l
  }

  /**
   One call into the header API: a status line replaces the status,
   `header_remove($name)` drops every line of that name, and `header($line)`
   replaces the lines of its name by itself. Nothing else changes.
   */
  function Apply(st: HeaderState, c: HeaderCall): (r: HeaderState)
    ensures c.Status? ==> r.status == Some(c.line) && r.lines == st.lines
    ensures c.Remove? ==> r.status == st.status && Absent(r.lines, c.name)
    ensures c.Remove? ==> forall l :: l in r.lines <==> l in st.lines && !SameIgnoringCase(Name(l), c.name)
    ensures c.Put? ==> r.status == st.status && Sole(r.lines, c.line)
    ensures c.Put? ==> forall l :: l in st.lines && !SameIgnoringCase(Name(l), Name(c.line)) ==> l in r.lines
    ensures c.Put? ==> forall l :: l in r.lines ==> l in st.lines || l == c.line
  {
    match c
    case Status(l) => st.(status := Some(l))
    case Remove(n) => st.(lines := Without(st.lines, n))
    case Put(l) => st.(lines := Without(st.lines, Name(l)) + [l])
  }

  /** The calls in order; without a status call the status is left as it was. */
  function ApplyAll(st: HeaderState, cs: seq<HeaderCall>): (r: HeaderState)
    ensures (forall i :: 0 <= i < |cs| ==> !cs[i].Status?) ==> r.status == st.status
    decreases |cs|
  {
    if |cs| == 0 then st else ApplyAll(Apply(st, cs[0]), cs[1..])
  }

  lemma {:induction false} ApplyAllAppend(st: HeaderState, cs: seq<HeaderCall>, ds: seq<HeaderCall>)
    ensures ApplyAll(st, cs + ds) == ApplyAll(ApplyAll(st, cs), ds)
    decreases |cs|
  {
    if |cs| > 0 {
      assert (cs + ds)[0] == cs[0];
      assert (cs + ds)[1..] == cs[1..] + ds;
      ApplyAllAppend(Apply(st, cs[0]), cs[1..], ds);
    } else {
      assert cs + ds == ds;
    }
  }

  /** A line that is the only one of its name stays so when a line of another name is added. */
  lemma PutKeepsSole(st: HeaderState, x: string, line: string)
    requires Sole(st.lines, x) && !SameIgnoringCase(Name(line), Name(x))
    ensures Sole(Apply(st, Put(line)).lines, x)
  {
    SameIgnoringCaseSymmetric(Name(line), Name(x));
  }

  /** ... and when the lines of another name are removed. */
  lemma RemoveKeepsSole(st: HeaderState, x: string, name: string)
    requires Sole(st.lines, x) && !SameIgnoringCase(Name(x), name)
    ensures Sole(Apply(st, Remove(name)).lines, x)
  {
  }

  const AcceptRanges: string := Field("Accept-Ranges", "bytes")

  function ContentType(contentType: string): string {
    Field("Content-Type", contentType)
  }

  function ContentDisposition(fileTitle: string): string {
    Field("Content-Disposition", "attachment; filename=\"" + fileTitle + "\"")
  }

  function ContentLength(byteRange: int): string {
    Field("Content-Length", IntToString(byteRange))
  }

  /**
   The calls of `setHeader`, in order: drop the caching headers, then announce
   byte ranges, the content type, the download name and the body length.
   */
  function SetHeader(contentType: string, fileTitle: string, byteRange: int): (cs: seq<HeaderCall>)
    ensures |cs| == 6
    ensures forall i, j :: 0 <= i < j < |cs| && cs[j].Remove? ==> cs[i].Remove?
    ensures forall i :: 0 <= i < |cs| ==> !cs[i].Status?
    ensures Remove("Cache-Control") in cs && Remove("Pragma") in cs
    ensures Put(AcceptRanges) in cs
    ensures Put(ContentType(contentType)) in cs
    ensures Put(ContentDisposition(fileTitle)) in cs
    ensures Put(ContentLength(byteRange)) in cs
  {
    [ Remove("Cache-Control"),
      Remove("Pragma"),
      Put(AcceptRanges),
      Put(ContentType(contentType)),
      Put(ContentDisposition(fileTitle)),
      Put(ContentLength(byteRange)) ]
  }

  /** A header name that is neither of the two caching headers. */
  predicate NotCaching(name: string) {
    !SameIgnoringCase(name, "Cache-Control") && !SameIgnoringCase(name, "Pragma")
  }

  /** A header name that is none of those `setHeader` removes or adds. */
  predicate NotSetByHeader(name: string) {
    && NotCaching(name)
    && !SameIgnoringCase(name, "Accept-Ranges")
    && !SameIgnoringCase(name, "Content-Type")
    && !SameIgnoringCase(name, "Content-Disposition")
    && !SameIgnoringCase(name, "Content-Length")
  }

  /** Adding a line of another name keeps a removed header absent. */
  lemma PutKeepsAbsent(st: HeaderState, line: string, name: string)
    requires Absent(st.lines, name) && !SameIgnoringCase(Name(line), name)
    ensures Absent(Apply(st, Put(line)).lines, name)
  {
  }

  lemma PutKeepsCachingAbsent(st: HeaderState, name: string, value: string)
    requires Absent(st.lines, "Cache-Control") && Absent(st.lines, "Pragma")
    requires ':' !in name && NotCaching(name)
    ensures Absent(Apply(st, Put(Field(name, value))).lines, "Cache-Control")
    ensures Absent(Apply(st, Put(Field(name, value))).lines, "Pragma")
  {
    NameOfField(name, value);
    PutKeepsAbsent(st, Field(name, value), "Cache-Control");
    PutKeepsAbsent(st, Field(name, value), "Pragma");
  }

  /** The header names `setHeader` puts are plain names, none of them a caching header. */
  lemma SetHeaderNames()
    ensures ':' !in "Accept-Ranges" && NotCaching("Accept-Ranges")
    ensures ':' !in "Content-Type" && NotCaching("Content-Type")
    ensures ':' !in "Content-Disposition" && NotCaching("Content-Disposition")
    ensures ':' !in "Content-Length" && NotCaching("Content-Length")
  {
    var acceptRanges, contentTypeName, disposition, lengthName :=
      "Accept-Ranges", "Content-Type", "Content-Disposition", "Content-Length";
    assert Lower(acceptRanges[0]) != Lower("Cache-Control"[0]);
    forall i | 0 <= i < |acceptRanges| ensures acceptRanges[i] != ':' { }
    forall i | 0 <= i < |contentTypeName| ensures contentTypeName[i] != ':' { }
    forall i | 0 <= i < |disposition| ensures disposition[i] != ':' { }
    forall i | 0 <= i < |lengthName| ensures lengthName[i] != ':' { }
  }

  /** The names of the lines `setHeader` adds. */
  lemma SetHeaderLineNames(contentType: string, fileTitle: string, byteRange: int)
    ensures Name(AcceptRanges) == "Accept-Ranges"
    ensures Name(ContentType(contentType)) == "Content-Type"
    ensures Name(ContentDisposition(fileTitle)) == "Content-Disposition"
    ensures Name(ContentLength(byteRange)) == "Content-Length"
  {
    SetHeaderNames();
    NameOfField("Accept-Ranges", "bytes");
    NameOfField("Content-Type", contentType);
    NameOfField("Content-Disposition", "attachment; filename=\"" + fileTitle + "\"");
    NameOfField("Content-Length", IntToString(byteRange));
  }

  /** `setHeader` applied call by call. */
  lemma SetHeaderSteps(st: HeaderState, contentType: string, fileTitle: string, byteRange: int)
    ensures var cs := SetHeader(contentType, fileTitle, byteRange);
      ApplyAll(st, cs) == Apply(Apply(Apply(Apply(Apply(Apply(st, cs[0]), cs[1]), cs[2]), cs[3]), cs[4]), cs[5])
  {
    var cs := SetHeader(contentType, fileTitle, byteRange);
    var s2 := Apply(Apply(st, cs[0]), cs[1]);
    var s3 := Apply(s2, cs[2]);
    var s4 := Apply(s3, cs[3]);
    var s5 := Apply(s4, cs[4]);
    var s6 := Apply(s5, cs[5]);
    assert ApplyAll(st, cs) == ApplyAll(s2, cs[2..]);
    assert ApplyAll(s2, cs[2..]) == ApplyAll(s3, cs[3..]);
    assert ApplyAll(s3, cs[3..]) == ApplyAll(s4, cs[4..]);
    assert ApplyAll(s4, cs[4..]) == ApplyAll(s5, cs[5..]);
    assert ApplyAll(s5, cs[5..]) == ApplyAll(s6, cs[6..]);
  }

  /**
   Whatever caching headers the surrounding code had set, none survives
   `setHeader`: it removes them before it adds anything, and adds none itself.
   */
  lemma CachingHeadersSuppressed(st: HeaderState, contentType: string, fileTitle: string, byteRange: int)
    ensures Absent(ApplyAll(st, SetHeader(contentType, fileTitle, byteRange)).lines, "Cache-Control")
    ensures Absent(ApplyAll(st, SetHeader(contentType, fileTitle, byteRange)).lines, "Pragma")
  {
    var cs := SetHeader(contentType, fileTitle, byteRange);
    SetHeaderSteps(st, contentType, fileTitle, byteRange);
    SetHeaderNames();
    var s2 := Apply(Apply(st, cs[0]), cs[1]);
    var s3 := Apply(s2, cs[2]);
    var s4 := Apply(s3, cs[3]);
    var s5 := Apply(s4, cs[4]);
    PutKeepsCachingAbsent(s2, "Accept-Ranges", "bytes");
    PutKeepsCachingAbsent(s3, "Content-Type", contentType);
    PutKeepsCachingAbsent(s4, "Content-Disposition", "attachment; filename=\"" + fileTitle + "\"");
    PutKeepsCachingAbsent(s5, "Content-Length", IntToString(byteRange));
  }

  /**
   After `setHeader` each of the four lines it adds is present and is the only
   line of its name, whatever was set before; the status is left alone.
   */
  lemma SetHeaderLinesSole(st: HeaderState, contentType: string, fileTitle: string, byteRange: int)
    ensures var final := ApplyAll(st, SetHeader(contentType, fileTitle, byteRange));
      && Sole(final.lines, AcceptRanges)
      && Sole(final.lines, ContentType(contentType))
      && Sole(final.lines, ContentDisposition(fileTitle))
      && Sole(final.lines, ContentLength(byteRange))
      && final.status == st.status
  {
    var cs := SetHeader(contentType, fileTitle, byteRange);
    SetHeaderSteps(st, contentType, fileTitle, byteRange);
    SetHeaderLineNames(contentType, fileTitle, byteRange);
    var s3 := Apply(Apply(Apply(st, cs[0]), cs[1]), cs[2]);
    var s4 := Apply(s3, cs[3]);
    var s5 := Apply(s4, cs[4]);
    PutKeepsSole(s3, AcceptRanges, cs[3].line);
    PutKeepsSole(s4, AcceptRanges, cs[4].line);
    PutKeepsSole(s5, AcceptRanges, cs[5].line);
    PutKeepsSole(s4, cs[3].line, cs[4].line);
    PutKeepsSole(s5, cs[3].line, cs[5].line);
    PutKeepsSole(s5, cs[4].line, cs[5].line);
  }

  /**
   A line that was the only one of its name before `setHeader` still is after
   it, provided `setHeader` neither removes nor adds a header of that name.
   */
  lemma SetHeaderKeepsSole(st: HeaderState, contentType: string, fileTitle: string, byteRange: int, x: string)
    requires Sole(st.lines, x) && NotSetByHeader(Name(x))
    ensures Sole(ApplyAll(st, SetHeader(contentType, fileTitle, byteRange)).lines, x)
  {
    var cs := SetHeader(contentType, fileTitle, byteRange);
    SetHeaderSteps(st, contentType, fileTitle, byteRange);
    SetHeaderLineNames(contentType, fileTitle, byteRange);
    var s1 := Apply(st, cs[0]);
    var s2 := Apply(s1, cs[1]);
    var s3 := Apply(s2, cs[2]);
    var s4 := Apply(s3, cs[3]);
    var s5 := Apply(s4, cs[4]);
    RemoveKeepsSole(st, x, "Cache-Control");
    RemoveKeepsSole(s1, x, "Pragma");
    SameIgnoringCaseSymmetric(Name(x), "Accept-Ranges");
    SameIgnoringCaseSymmetric(Name(x), "Content-Type");
    SameIgnoringCaseSymmetric(Name(x), "Content-Disposition");
    SameIgnoringCaseSymmetric(Name(x), "Content-Length");
    PutKeepsSole(s2, x, cs[2].line);
    PutKeepsSole(s3, x, cs[3].line);
    PutKeepsSole(s4, x, cs[4].line);
    PutKeepsSole(s5, x, cs[5].line);
  }

  /**
   After `setHeader` the Content-Length line stating `byteRange` is the only
   line of its name; read back as digits it gives `byteRange` itself.
   */
  lemma ContentLengthIsByteRange(st: HeaderState, contentType: string, fileTitle: string, byteRange: int)
    ensures Sole(ApplyAll(st, SetHeader(contentType, fileTitle, byteRange)).lines, ContentLength(byteRange))
    ensures Name(ContentLength(byteRange)) == "Content-Length"
    ensures byteRange >= 0 ==> Value(ContentLength(byteRange)[16..]) == byteRange
  {
    SetHeaderLinesSole(st, contentType, fileTitle, byteRange);
    SetHeaderLineNames(contentType, fileTitle, byteRange);
    if byteRange >= 0 {
      assert ContentLength(byteRange)[16..] == NatToString(byteRange);
      ValueOfNatToString(byteRange);
    }
  }
}

=== FILE: optional.dfy ===
/** An optional value, for PHP functions that return `false` on failure. */
module Optional {

  datatype Option<T> = None | Some(value: T)
}

=== FILE: range_parse.dfy ===
/**
 `parseRangeHeader`: reads a byte range out of the raw `Range` request header
 with the pattern `bytes=(\d+)-(\d+)?`, case-insensitive and unanchored, and on
 success emits the 206 status line and a Content-Range header (a subset of
 sections 2.1, 4.1 and 4.2 of RFC 7233: no suffix ranges, no multiple ranges,
 no 416). The numbers are taken as written: a missing end becomes
 `fileSize - 1`, and neither bound is compared with the other or with the file.
 */
module RangeParse {
  import opened Text
  import opened Optional
  import opened Headers

  /** The requested bytes, inclusive; `last` is -1 for an open range on an empty file. */
  datatype ByteSpan = ByteSpan(first: nat, last: int)

  /** What `parseRangeHeader` returns, and the header calls it makes on the way. */
  datatype ParseOutcome = ParseOutcome(span: Option<ByteSpan>, emitted: seq<HeaderCall>)

  const Key: string := "bytes="

  /** `bytes=` starts at position i, its letters in either case. */
  predicate KeyAt(s: string, i: nat) {
    i + 6 <= |s| && SameIgnoringCase(s[i..i + 6], Key)
  }

  /**
   The pattern matches at position i. Since `-` is not a digit, giving digits
   back from the greedy first group never helps, so a match exists exactly when
   the maximal digit run after the key is non-empty and followed by `-`.
   */
  predicate MatchAt(s: string, i: nat)
    ensures MatchAt(s, i) ==> i + 8 <= |s| && IsDigit(s[i + 6])
  {
    && KeyAt(s, i)
    && var n := DigitRun(s, i + 6);
    && n > 0 && i + 6 + n < |s| && s[i + 6 + n] == '-'
  }

  /** After the key at i, `n` digits and then `-`: one way the pattern's first group can match. */
  predicate DigitsThenDash(s: string, i: nat, n: nat) {
    0 < n && i + 6 + n < |s| && AllDigits(s[i + 6..i + 6 + n]) && s[i + 6 + n] == '-'
  }

  /**
   The pattern read as the regular expression reads it: the key, some
   non-empty run of digits (not necessarily the longest), then `-`.
   */
  lemma MatchAtMeansPattern(s: string, i: nat)
    ensures MatchAt(s, i) <==> KeyAt(s, i) && exists n: nat :: DigitsThenDash(s, i, n)
  {
    if MatchAt(s, i) {
      assert DigitsThenDash(s, i, DigitRun(s, i + 6));
    }
    if KeyAt(s, i) && exists n: nat :: DigitsThenDash(s, i, n) {
      var n: nat :| DigitsThenDash(s, i, n);
      DigitRunOver(s, i + 6, s[i + 6..i + 6 + n]);
    }
  }

  /** The leftmost match at or after `from`, as the regular expression engine finds it. */
  function FirstMatch(s: string, from: nat): (r: Option<nat>)
    ensures r.Some? ==> from <= r.value && MatchAt(s, r.value)
    ensures r.Some? ==> forall j: nat :: from <= j < r.value ==> !MatchAt(s, j)
    ensures r.None? ==> forall j: nat :: from <= j ==> !MatchAt(s, j)
    decreases |s| - from
  {
    if from + 6 > |s| then None
    else if MatchAt(s, from) then Some(from)
    else FirstMatch(s, from + 1)
  }

  const PartialContentStatus: string := "HTTP/1.1 206 Partial content"

  /** The Content-Range line, numbers written as `%d`. */
  function ContentRange(span: ByteSpan, fileSize: nat): string {
    Field("Content-Range", "bytes " + IntToString(span.first) + "-" + IntToString(span.last) + "/" + IntToString(fileSize))
  }

  /** The Content-Range line is named "Content-Range", a header `setHeader` neither removes nor sets. */
  lemma ContentRangeName(span: ByteSpan, fileSize: nat)
    ensures Name(ContentRange(span, fileSize)) == "Content-Range"
    ensures NotSetByHeader("Content-Range")
  {
    var name := "Content-Range";
    forall i | 0 <= i < |name| ensures name[i] != ':' { }
    NameOfField(name, "bytes " + IntToString(span.first) + "-" + IntToString(span.last) + "/" + IntToString(fileSize));
    assert Lower(name[1]) != Lower("Cache-Control"[1]);
    assert Lower(name[0]) != Lower("Accept-Ranges"[0]);
  }

  function PartialContentCalls(span: ByteSpan, fileSize: nat): seq<HeaderCall> {
    [Status(PartialContentStatus), Put(ContentRange(span, fileSize))]
  }

  /**
   The numbers read at a match at position k: the start digits after the key,
   and the end digits after `-` if there are any, `fileSize - 1` otherwise.
   */
  function SpanAt(header: string, k: nat, fileSize: nat): (span: ByteSpan)
    requires MatchAt(header, k)
    ensures ReadNat(header, k + 6).Some? && span.first == ReadNat(header, k + 6).value.0
    ensures var e := ReadNat(header, k + 6).value.1 + 1;
      e <= |header| && header[e - 1] == '-' &&
      span.last == match ReadNat(header, e) { case Some(p) => p.0 case None => fileSize - 1 }
  {
    var d := k + 6;
    var n := DigitRun(header, d);
    var e := d + n + 1;
    var m := DigitRun(header, e);
    ByteSpan(Value(header[d..d + n]), if m > 0 then Value(header[e..e + m]) else fileSize - 1)
  }

  /** `parseRangeHeader($fileSize)` applied to the header value `header`. */
  function ParseRangeHeader(header: string, fileSize: nat): (r: ParseOutcome)
    ensures r.span.None? <==> forall i: nat :: !MatchAt(header, i)
    ensures r.span.None? ==> r.emitted == []
    ensures r.span.Some? ==> r.emitted == PartialContentCalls(r.span.value, fileSize)
  {
    match FirstMatch(header, 0)
    case None => ParseOutcome(None, [])
    case Some(k) =>
      var span := SpanAt(header, k, fileSize);
      ParseOutcome(Some(span), PartialContentCalls(span, fileSize))
  }

  /**
   Only the leftmost occurrence of the pattern counts: the numbers are those
   written after the first `bytes=` that is followed by digits and `-`.
   */
  lemma ParseUsesLeftmostMatch(h: string, fileSize: nat, k: nat)
    requires MatchAt(h, k) && forall j: nat :: j < k ==> !MatchAt(h, j)
    ensures ParseRangeHeader(h, fileSize).span == Some(SpanAt(h, k, fileSize))
  {
  }

  /** A header value of the documented shape: key, start digits, `-`, optional end digits, then anything not starting with a digit. */
  function RangeValue(key: string, first: string, last: string, rest: string): string {
    key + first + "-" + last + rest
  }

  /** A range at the very start of the header is the leftmost match. */
  lemma {:induction false} MatchAtStart(h: string, first: string)
    requires 6 + |first| < |h| && SameIgnoringCase(h[..6], Key)
    requires |first| > 0 && AllDigits(first) && h[6..6 + |first|] == first
    requires h[6 + |first|] == '-'
    ensures DigitRun(h, 6) == |first| && FirstMatch(h, 0) == Some(0)
  {
    assert h[0..6] == h[..6];
    DigitRunOver(h, 6, first);
    assert MatchAt(h, 0);
  }

  /**
   A well-formed range is read as written: `bytes=N-M` gives (N, M), `bytes=N-`
   gives (N, fileSize - 1), in any letter case, with no clamping and no check
   that N <= M. Whatever follows the first range (`,200-299`, say) is ignored.
   */
  lemma {:induction false} ParseWellFormed(key: string, first: string, last: string, rest: string, fileSize: nat)
    requires SameIgnoringCase(key, Key)
    requires |first| > 0 && AllDigits(first) && AllDigits(last)
    requires rest == [] || !IsDigit(rest[0])
    ensures ParseRangeHeader(RangeValue(key, first, last, rest), fileSize).span
      == Some(ByteSpan(Value(first), if |last| > 0 then Value(last) else fileSize - 1))
  {
    var tail := last + rest;
    var h := RangeValue(key, first, last, rest);
    var d := 6 + |first|;
    assert h == key + first + "-" + tail;
    assert h[..6] == key;
    assert h[6..d] == first;
    assert h[d] == '-';
    MatchAtStart(h, first);
    assert h[d + 1..] == tail;
    assert h[d + 1..d + 1 + |last|] == last by {
      assert tail[..|last|] == last;
    }
    assert d + 1 + |last| < |h| ==> h[d + 1 + |last|] == rest[0] by {
      if d + 1 + |last| < |h| {
        assert tail[|last|] == rest[0];
      }
    }
    DigitRunOver(h, d + 1, last);
  }

  /** The canonical rendering `bytes=N-M` parses back to (N, M). */
  lemma ParseRendered(first: nat, last: nat, fileSize: nat)
    ensures ParseRangeHeader(Key + NatToString(first) + "-" + NatToString(last), fileSize).span
      == Some(ByteSpan(first, last))
  {
    assert Key + NatToString(first) + "-" + NatToString(last) == RangeValue(Key, NatToString(first), NatToString(last), "");
    ParseWellFormed(Key, NatToString(first), NatToString(last), "", fileSize);
    ValueOfNatToString(first);
    ValueOfNatToString(last);
  }

  lemma KeyAtStartsWithBy(s: string, i: nat)
    requires KeyAt(s, i)
    ensures Lower(s[i]) == 'b' && Lower(s[i + 1]) == 'y'
  {
    assert s[i..i + 6][0] == s[i] && s[i..i + 6][1] == s[i + 1];
  }

  /** `bytes=000-` and the like start at byte 0: a start of only zeros reads as 0. */
  lemma ParseZeroStart(zeros: string, fileSize: nat)
    requires |zeros| > 0 && forall i :: 0 <= i < |zeros| ==> zeros[i] == '0'
    ensures ParseRangeHeader("bytes=" + zeros + "-", fileSize).span == Some(ByteSpan(0, fileSize - 1))
  {
    assert RangeValue(Key, zeros, "", "") == "bytes=" + zeros + "-";
    ParseWellFormed(Key, zeros, "", "", fileSize);
    ValueZero(zeros);
  }

  /** A start with no digits after the key, as in `bytes=abc-def`, is no match. */
  lemma ParseRejectsLetters(h: string, fileSize: nat)
    requires h == "bytes=abc-def"
    ensures ParseRangeHeader(h, fileSize).span.None?
  {
    assert DigitRun(h, 6) == 0 by {
      assert h[6] == 'a';
    }
    assert FirstMatch(h, 8) == None;
    forall j: nat | 1 <= j <= 7 ensures !KeyAt(h, j) {
      if KeyAt(h, j) {
        KeyAtStartsWithBy(h, j);
      }
    }
    assert FirstMatch(h, 7) == None;
    assert FirstMatch(h, 6) == None;
    assert FirstMatch(h, 5) == None;
    assert FirstMatch(h, 4) == None;
    assert FirstMatch(h, 3) == None;
    assert FirstMatch(h, 2) == None;
    assert FirstMatch(h, 1) == None;
  }

  /** Reads `N-M/T` back into its three numbers. */
  function ReadSpanText(t: string): Option<(nat, nat, nat)> {
    match ReadNat(t, 0)
    case None => None
    case Some((first, i)) =>
      if i >= |t| || t[i] != '-' then None
      else match ReadNat(t, i + 1)
      case None => None
      case Some((last, j)) =>
        if j >= |t| || t[j] != '/' then None
        else match ReadNat(t, j + 1)
        case None => None
        case Some((total, k)) => if k != |t| then None else Some((first, last, total))
  }

  const ContentRangePrefix: string := "Content-Range: bytes "

  /** Reads a Content-Range line back into its three numbers. */
  function ReadContentRange(line: string): Option<(nat, nat, nat)> {
    var p := |ContentRangePrefix|;
    if |line| < p || line[..p] != ContentRangePrefix then None else ReadSpanText(line[p..])
  }

  /** `N-M/T` rendered from three numbers. */
  function SpanText(first: nat, last: nat, total: nat): string {
    NatToString(first) + "-" + NatToString(last) + "/" + NatToString(total)
  }

  lemma ReadFirstOf(first: nat, b: string, c: string)
    ensures var a := NatToString(first);
      ReadNat(a + "-" + b + "/" + c, 0) == Some((first, |a|)) && (a + "-" + b + "/" + c)[|a|] == '-'
  {
    var a := NatToString(first);
    assert a + "-" + b + "/" + c == [] + a + ("-" + b + "/" + c);
    ReadNatIn([], first, "-" + b + "/" + c);
  }

  lemma ReadLastOf(a: string, last: nat, c: string)
    ensures var b := NatToString(last);
      ReadNat(a + "-" + b + "/" + c, |a| + 1) == Some((last, |a| + 1 + |b|)) && (a + "-" + b + "/" + c)[|a| + 1 + |b|] == '/'
  {
    var b := NatToString(last);
    assert a + "-" + b + "/" + c == (a + "-") + b + ("/" + c);
    ReadNatIn(a + "-", last, "/" + c);
  }

  lemma ReadTotalOf(a: string, b: string, total: nat)
    ensures var t := a + "-" + b + "/" + NatToString(total);
      ReadNat(t, |a| + |b| + 2) == Some((total, |t|))
  {
    ReadNatAtEnd(a + "-" + b + "/", total);
  }

  /** The three reads of `ReadSpanText`, one after the other. */
  lemma ReadSpanTextOf(t: string, first: nat, last: nat, total: nat, i: nat, j: nat)
    requires ReadNat(t, 0) == Some((first, i)) && i < |t| && t[i] == '-'
    requires ReadNat(t, i + 1) == Some((last, j)) && j < |t| && t[j] == '/'
    requires ReadNat(t, j + 1) == Some((total, |t|))
    ensures ReadSpanText(t) == Some((first, last, total))
  {
  }

  lemma ReadSpanTextRendered(first: nat, last: nat, total: nat)
    ensures ReadSpanText(SpanText(first, last, total)) == Some((first, last, total))
  {
    var a, b, c := NatToString(first), NatToString(last), NatToString(total);
    ReadFirstOf(first, b, c);
    ReadLastOf(a, last, c);
    ReadTotalOf(a, b, total);
    ReadSpanTextOf(SpanText(first, last, total), first, last, total, |a|, |a| + 1 + |b|);
  }

  /** The Content-Range line is the fixed prefix followed by `N-M/T`. */
  lemma ContentRangeShape(span: ByteSpan, fileSize: nat)
    requires span.last >= 0
    ensures ContentRange(span, fileSize) == ContentRangePrefix + SpanText(span.first, span.last, fileSize)
  {
  }

  lemma ReadContentRangeAfterPrefix(t: string)
    ensures ReadContentRange(ContentRangePrefix + t) == ReadSpanText(t)
  {
    var line := ContentRangePrefix + t;
    assert line[..|ContentRangePrefix|] == ContentRangePrefix;
    assert line[|ContentRangePrefix|..] == t;
  }

  /**
   The Content-Range line states exactly the span that was parsed and the file
   size, whenever the end is not negative.
   */
  lemma ContentRangeStatesSpan(span: ByteSpan, fileSize: nat)
    requires span.last >= 0
    ensures ReadContentRange(ContentRange(span, fileSize)) == Some((span.first, span.last as nat, fileSize))
  {
    ContentRangeShape(span, fileSize);
    ReadContentRangeAfterPrefix(SpanText(span.first, span.last, fileSize));
    ReadSpanTextRendered(span.first, span.last, fileSize);
  }
}

=== FILE: selection.dfy ===
/**
 The interval `serveFilePartial` serves: `$byteOffset`, `$finishBytes` and
 `$byteRange = $finishBytes - $byteOffset + 1`.

 The condition that chooses between the parsed range and the whole file is
 written `!$result = parseRangeHeader($fileSize)`, which PHP reads as
 `!($result = parseRangeHeader($fileSize))`. A successful parse returns a
 non-empty array, so the negation is false and the whole file is chosen; a
 failed parse returns `false`, the negation is true, and both bounds are read
 out of `false`, which yields null, i.e. 0 in arithmetic. `SelectAsWritten`
 keeps that behaviour; `SelectIntended` is the evident intent (the parsed
 range when there is one, the whole file otherwise).
 */
module Selection {
  import opened Optional
  import opened Text
  import opened RangeParse

  /** Inclusive bounds as the PHP variables hold them; null is represented by 0. */
  datatype Interval = Interval(byteOffset: int, finishBytes: int)

  /** The number of bytes in the inclusive interval; positive exactly when the interval is not empty. */
  function ByteRange(iv: Interval): (n: int)
    ensures n > 0 <==> iv.byteOffset <= iv.finishBytes
  {
    iv.finishBytes - iv.byteOffset + 1
  }

  function WholeFile(fileSize: nat): Interval {
    Interval(0, fileSize - 1)
  }

  function SpanInterval(span: ByteSpan): Interval {
    Interval(span.first, span.last)
  }

  /** Lines 8 to 15 as written; the parser only runs when a Range header was sent. */
  function SelectAsWritten(rangeHeader: Option<string>, fileSize: nat): (iv: Interval)
    ensures iv.byteOffset == 0
  {
    match rangeHeader
    case None => WholeFile(fileSize)
    case Some(h) =>
      if ParseRangeHeader(h, fileSize).span.None? then Interval(0, 0) else WholeFile(fileSize)
  }

  /** The selection the code evidently intends: the parsed range, else the whole file. */
  function SelectIntended(rangeHeader: Option<string>, fileSize: nat): (iv: Interval)
    ensures iv.byteOffset >= 0
  {
    match rangeHeader
    case None => WholeFile(fileSize)
    case Some(h) =>
      match ParseRangeHeader(h, fileSize).span
      case None => WholeFile(fileSize)
      case Some(span) => SpanInterval(span)
  }

  /** Without a Range header both versions serve bytes 0 to fileSize - 1, fileSize bytes in all. */
  lemma NoRangeServesWholeFile(fileSize: nat)
    ensures SelectAsWritten(None, fileSize) == Interval(0, fileSize - 1)
    ensures SelectIntended(None, fileSize) == Interval(0, fileSize - 1)
    ensures ByteRange(SelectAsWritten(None, fileSize)) == fileSize
  {
  }

  /**
   As written, a Range header that parses still selects the whole file, while
   the parser has already announced the parsed span in Content-Range.
   */
  lemma AsWrittenIgnoresParsedRange(h: string, fileSize: nat)
    requires ParseRangeHeader(h, fileSize).span.Some?
    ensures SelectAsWritten(Some(h), fileSize) == WholeFile(fileSize)
    ensures ByteRange(SelectAsWritten(Some(h), fileSize)) == fileSize
    ensures Headers.Put(ContentRange(ParseRangeHeader(h, fileSize).span.value, fileSize))
      in ParseRangeHeader(h, fileSize).emitted
  {
  }

  /** As written, a Range header that does not parse selects the single byte at offset 0. */
  lemma AsWrittenFailedParseServesOneByte(h: string, fileSize: nat)
    requires forall i: nat :: !MatchAt(h, i)
    ensures SelectAsWritten(Some(h), fileSize) == Interval(0, 0)
    ensures ByteRange(SelectAsWritten(Some(h), fileSize)) == 1
  {
  }

  /**
   The discrepancy on a concrete family of inputs: `bytes=N-M` with a span
   other than the whole file is announced as N-M in Content-Range yet the
   as-written code selects, and sizes Content-Length for, the whole file.
   With N = 100, M = 199 on a 1000-byte file: Content-Range says 100-199,
   Content-Length says 1000.
   */
  lemma AsWrittenMisreportsRange(first: nat, last: nat, fileSize: nat)
    requires Interval(first, last) != WholeFile(fileSize)
    ensures var h := Key + NatToString(first) + "-" + NatToString(last);
      && ParseRangeHeader(h, fileSize).span == Some(ByteSpan(first, last))
      && SelectAsWritten(Some(h), fileSize) != SpanInterval(ByteSpan(first, last))
      && ByteRange(SelectAsWritten(Some(h), fileSize)) == fileSize
  {
    ParseRendered(first, last, fileSize);
  }

  /**
   The intended selection serves what the parser announced: the interval is the
   parsed span, Content-Range reads back as that span, and the length is
   `last - first + 1`. Without a parsable range it is the whole file.
   */
  lemma IntendedAgreesWithContentRange(rangeHeader: Option<string>, fileSize: nat)
    ensures rangeHeader.Some? && ParseRangeHeader(rangeHeader.value, fileSize).span.Some? ==>
      var span := ParseRangeHeader(rangeHeader.value, fileSize).span.value;
      && SelectIntended(rangeHeader, fileSize) == Interval(span.first, span.last)
      && ByteRange(SelectIntended(rangeHeader, fileSize)) == span.last - span.first + 1
      && (span.last >= 0 ==>
            ReadContentRange(ContentRange(span, fileSize)) == Some((span.first, span.last as nat, fileSize)))
    ensures (rangeHeader.None? || ParseRangeHeader(rangeHeader.value, fileSize).span.None?) ==>
      SelectIntended(rangeHeader, fileSize) == WholeFile(fileSize)
  {
    if rangeHeader.Some? && ParseRangeHeader(rangeHeader.value, fileSize).span.Some? {
      var span := ParseRangeHeader(rangeHeader.value, fileSize).span.value;
      if span.last >= 0 {
        ContentRangeStatesSpan(span, fileSize);
      }
    }
  }

  /**
   The two selections differ exactly when a Range header was sent and either
   it parses to a span that is not the whole file, or it does not parse and
   the file is not exactly one byte long (as written that case serves one
   byte, the intended selection the whole file).
   */
  lemma AsWrittenDiffersFromIntended(rangeHeader: Option<string>, fileSize: nat)
    ensures SelectAsWritten(rangeHeader, fileSize) != SelectIntended(rangeHeader, fileSize) <==>
      && rangeHeader.Some?
      && match ParseRangeHeader(rangeHeader.value, fileSize).span
         case None => fileSize != 1
         case Some(span) => SpanInterval(span) != WholeFile(fileSize)
  {
  }
}

=== FILE: serve.dfy ===
/**
 `serveFilePartial`: picks the interval to serve, emits the headers and
 copies the interval to the client, then ends the request (`exit()` becomes
 returning the response).

 The file is given as its contents, so `checkFile`, `filesize` and the
 `fopen`/`fseek` of `openFile` are replaced by that sequence and an offset
 into it (the offset is never negative, so `fseek` cannot fail). The base
 name used when no title is given is an input, as `basename` is a path
 library call.
 */
module Serve {
  import opened Optional
  import opened Headers
  import opened RangeParse
  import opened Selection
  import opened ChunkedCopy

  /** PHP's `empty()` on a string is true for "" and for "0". */
  predicate EmptyTitle(t: string) {
    t == "" || t == "0"
  }

  /** The download name: the given title unless `empty()` holds of it. */
  function Title(fileTitle: string, baseName: string): (t: string)
    ensures EmptyTitle(fileTitle) ==> t == baseName
    ensures !EmptyTitle(fileTitle) ==> t == fileTitle
  {
    if EmptyTitle(fileTitle) then baseName else fileTitle
  }

  /** The headers set, the bytes printed, and whether the copy loop raised its warning. */
  datatype Response = Response(headerCalls: seq<HeaderCall>, body: seq<bv8>, warned: bool)

  /** A Range header was sent and the parser found a span in it. */
  predicate Parsed(rangeHeader: Option<string>, fileSize: nat) {
    rangeHeader.Some? && ParseRangeHeader(rangeHeader.value, fileSize).span.Some?
  }

  /** The parser's calls (made only when a Range header was sent), then those of `setHeader`. */
  function HeaderCalls(rangeHeader: Option<string>, fileSize: nat, contentType: string, title: string, iv: Interval)
    : (calls: seq<HeaderCall>)
    ensures |calls| > 0 && (calls[0].Status? <==> Parsed(rangeHeader, fileSize))
    ensures forall i :: 0 < i < |calls| ==> !calls[i].Status?
  {
    (if rangeHeader.Some? then ParseRangeHeader(rangeHeader.value, fileSize).emitted else [])
      + SetHeader(contentType, title, ByteRange(iv))
  }

  /**
   Whatever the framework had set before, the response carries no caching
   header, and its only Content-Length header states the selected byte range.
   */
  lemma HeaderCallsSuppressCaching(rangeHeader: Option<string>, fileSize: nat, contentType: string, title: string, iv: Interval)
    ensures forall st :: Absent(ApplyAll(st, HeaderCalls(rangeHeader, fileSize, contentType, title, iv)).lines, "Cache-Control")
    ensures forall st :: Absent(ApplyAll(st, HeaderCalls(rangeHeader, fileSize, contentType, title, iv)).lines, "Pragma")
    ensures forall st :: ContentLength(ByteRange(iv)) in ApplyAll(st, HeaderCalls(rangeHeader, fileSize, contentType, title, iv)).lines
  {
    var pre := if rangeHeader.Some? then ParseRangeHeader(rangeHeader.value, fileSize).emitted else [];
    forall st
      ensures Absent(ApplyAll(st, HeaderCalls(rangeHeader, fileSize, contentType, title, iv)).lines, "Cache-Control")
      ensures Absent(ApplyAll(st, HeaderCalls(rangeHeader, fileSize, contentType, title, iv)).lines, "Pragma")
      ensures ContentLength(ByteRange(iv)) in ApplyAll(st, HeaderCalls(rangeHeader, fileSize, contentType, title, iv)).lines
    {
      ApplyAllAppend(st, pre, SetHeader(contentType, title, ByteRange(iv)));
      CachingHeadersSuppressed(ApplyAll(st, pre), contentType, title, ByteRange(iv));
      ContentLengthIsByteRange(ApplyAll(st, pre), contentType, title, ByteRange(iv));
    }
  }

  /** Which calls the composed header sequence contains. */
  lemma HeaderCallsContain(rangeHeader: Option<string>, fileSize: nat, contentType: string, title: string, iv: Interval)
    ensures var calls := HeaderCalls(rangeHeader, fileSize, contentType, title, iv);
      && Put(ContentLength(ByteRange(iv))) in calls
      && Put(ContentDisposition(title)) in calls
      && (rangeHeader.None? ==> forall c :: c in calls ==> !c.Status?)
      && (rangeHeader.Some? && ParseRangeHeader(rangeHeader.value, fileSize).span.Some? ==>
            && Status(PartialContentStatus) in calls
            && Put(ContentRange(ParseRangeHeader(rangeHeader.value, fileSize).span.value, fileSize)) in calls)
  {
    var calls := HeaderCalls(rangeHeader, fileSize, contentType, title, iv);
    var pre := if rangeHeader.Some? then ParseRangeHeader(rangeHeader.value, fileSize).emitted else [];
    var setCalls := SetHeader(contentType, title, ByteRange(iv));
    assert calls == pre + setCalls;
    assert setCalls[4] in calls && setCalls[5] in calls;
    if rangeHeader.Some? && ParseRangeHeader(rangeHeader.value, fileSize).span.Some? {
      assert pre[0] in calls && pre[1] in calls;
    }
  }

  /**
   Whatever the framework had set before, each line `setHeader` adds is the
   only header of its name in the response.
   */
  lemma HeaderCallsSetHeaderLines(rangeHeader: Option<string>, fileSize: nat, contentType: string, title: string, iv: Interval)
    ensures forall st :: Sole(ApplyAll(st, HeaderCalls(rangeHeader, fileSize, contentType, title, iv)).lines, AcceptRanges)
    ensures forall st :: Sole(ApplyAll(st, HeaderCalls(rangeHeader, fileSize, contentType, title, iv)).lines, ContentType(contentType))
    ensures forall st :: Sole(ApplyAll(st, HeaderCalls(rangeHeader, fileSize, contentType, title, iv)).lines, ContentDisposition(title))
    ensures forall st :: Sole(ApplyAll(st, HeaderCalls(rangeHeader, fileSize, contentType, title, iv)).lines, ContentLength(ByteRange(iv)))
  {
    var pre := if rangeHeader.Some? then ParseRangeHeader(rangeHeader.value, fileSize).emitted else [];
    forall st
      ensures Sole(ApplyAll(st, HeaderCalls(rangeHeader, fileSize, contentType, title, iv)).lines, AcceptRanges)
      ensures Sole(ApplyAll(st, HeaderCalls(rangeHeader, fileSize, contentType, title, iv)).lines, ContentType(contentType))
      ensures Sole(ApplyAll(st, HeaderCalls(rangeHeader, fileSize, contentType, title, iv)).lines, ContentDisposition(title))
      ensures Sole(ApplyAll(st, HeaderCalls(rangeHeader, fileSize, contentType, title, iv)).lines, ContentLength(ByteRange(iv)))
    {
      ApplyAllAppend(st, pre, SetHeader(contentType, title, ByteRange(iv)));
      SetHeaderLinesSole(ApplyAll(st, pre), contentType, title, ByteRange(iv));
    }
  }

  /** The status and Content-Range lines of the response after all its header calls. */
  predicate RangeAnnounced(final: HeaderState, span: ByteSpan, fileSize: nat) {
    Sole(final.lines, ContentRange(span, fileSize)) && final.status == Some(PartialContentStatus)
  }

  /**
   With a parsed span the response has the 206 status and the parsed
   Content-Range is the only line of its name; otherwise the status is left
   as the framework had it.
   */
  lemma HeaderCallsRangeLines(rangeHeader: Option<string>, fileSize: nat, contentType: string, title: string, iv: Interval)
    ensures Parsed(rangeHeader, fileSize) ==> forall st ::
      RangeAnnounced(ApplyAll(st, HeaderCalls(rangeHeader, fileSize, contentType, title, iv)),
                     ParseRangeHeader(rangeHeader.value, fileSize).span.value, fileSize)
    ensures !Parsed(rangeHeader, fileSize) ==> forall st ::
      ApplyAll(st, HeaderCalls(rangeHeader, fileSize, contentType, title, iv)).status == st.status
  {
    var pre := if rangeHeader.Some? then ParseRangeHeader(rangeHeader.value, fileSize).emitted else [];
    var post := SetHeader(contentType, title, ByteRange(iv));
    forall st
      ensures Parsed(rangeHeader, fileSize) ==>
        RangeAnnounced(ApplyAll(st, HeaderCalls(rangeHeader, fileSize, contentType, title, iv)),
                       ParseRangeHeader(rangeHeader.value, fileSize).span.value, fileSize)
      ensures !Parsed(rangeHeader, fileSize) ==>
        ApplyAll(st, HeaderCalls(rangeHeader, fileSize, contentType, title, iv)).status == st.status
    {
      ApplyAllAppend(st, pre, post);
      if Parsed(rangeHeader, fileSize) {
        var span := ParseRangeHeader(rangeHeader.value, fileSize).span.value;
        var s1 := Apply(st, pre[0]);
        var s2 := Apply(s1, pre[1]);
        assert ApplyAll(st, pre) == ApplyAll(s2, pre[2..]);
        ContentRangeName(span, fileSize);
        SetHeaderKeepsSole(s2, contentType, title, ByteRange(iv), ContentRange(span, fileSize));
      } else {
        assert pre == [];
      }
    }
  }

  /** Available bytes at offset 0: the whole file, or its first byte. */
  lemma AvailableFromStart(file: seq<bv8>)
    ensures Available(file, 0, |file|) == file
    ensures Available(file, 0, 1) == file[..if |file| > 0 then 1 else 0]
  {
  }

  /** What the copy loop guarantees about the body it printed for interval `iv`. */
  predicate Delivered(file: seq<bv8>, iv: Interval, body: seq<bv8>, warned: bool)
    requires iv.byteOffset >= 0
  {
    && body == Available(file, iv.byteOffset, ByteRange(iv))
    && (ByteRange(iv) <= 0 ==> !warned)
    && (ByteRange(iv) > 0 ==> (warned <==> iv.byteOffset + ByteRange(iv) > |file|))
    && (!warned ==> |body| == if ByteRange(iv) > 0 then ByteRange(iv) else 0)
  }

  /** The response for interval `iv`: the composed header calls, and the interval copied. */
  predicate Responds(file: seq<bv8>, rangeHeader: Option<string>, contentType: string, title: string, iv: Interval, r: Response)
    requires iv.byteOffset >= 0
  {
    r.headerCalls == HeaderCalls(rangeHeader, |file|, contentType, title, iv) && Delivered(file, iv, r.body, r.warned)
  }

  /** Sets the headers for interval `iv`, then copies the interval of `file`. */
  method Respond(file: seq<bv8>, rangeHeader: Option<string>, contentType: string, title: string, iv: Interval)
    returns (r: Response)
    requires iv.byteOffset >= 0
    ensures Responds(file, rangeHeader, contentType, title, iv, r)
    ensures r.body == Available(file, iv.byteOffset, ByteRange(iv))
    ensures !r.warned ==> |r.body| == if ByteRange(iv) > 0 then ByteRange(iv) else 0
  {
    var body, chunks, requests, warned := RangeOutput(file, iv.byteOffset, ByteRange(iv));
    r := Response(HeaderCalls(rangeHeader, |file|, contentType, title, iv), body, warned);
  }

  /** Whatever the interval, no caching header is left in the response. */
  lemma RespondsWithoutCaching(file: seq<bv8>, rangeHeader: Option<string>, contentType: string, title: string, iv: Interval, r: Response)
    requires iv.byteOffset >= 0 && Responds(file, rangeHeader, contentType, title, iv, r)
    ensures forall st :: Absent(ApplyAll(st, r.headerCalls).lines, "Cache-Control")
    ensures forall st :: Absent(ApplyAll(st, r.headerCalls).lines, "Pragma")
  {
    HeaderCallsSuppressCaching(rangeHeader, |file|, contentType, title, iv);
  }

  /** The response's only Content-Length header states the interval's length; its only Content-Disposition names the download. */
  lemma RespondsWithLength(file: seq<bv8>, rangeHeader: Option<string>, contentType: string, title: string, iv: Interval, r: Response)
    requires iv.byteOffset >= 0 && Responds(file, rangeHeader, contentType, title, iv, r)
    ensures forall st :: Sole(ApplyAll(st, r.headerCalls).lines, ContentLength(ByteRange(iv)))
    ensures forall st :: Sole(ApplyAll(st, r.headerCalls).lines, ContentDisposition(title))
  {
    HeaderCallsSetHeaderLines(rangeHeader, |file|, contentType, title, iv);
  }

  /** A parsed span is announced by the 206 status and its own Content-Range; otherwise the status is untouched. */
  lemma RespondsWithRange(file: seq<bv8>, rangeHeader: Option<string>, contentType: string, title: string, iv: Interval, r: Response)
    requires iv.byteOffset >= 0 && Responds(file, rangeHeader, contentType, title, iv, r)
    ensures Parsed(rangeHeader, |file|) ==> forall st ::
      RangeAnnounced(ApplyAll(st, r.headerCalls), ParseRangeHeader(rangeHeader.value, |file|).span.value, |file|)
    ensures !Parsed(rangeHeader, |file|) ==> forall st :: ApplyAll(st, r.headerCalls).status == st.status
  {
    HeaderCallsRangeLines(rangeHeader, |file|, contentType, title, iv);
  }

  /** As written, with no Range header the whole file is sent, with its length and no status line. */
  lemma AsWrittenNoHeader(file: seq<bv8>, rangeHeader: Option<string>, contentType: string, title: string, r: Response)
    requires Responds(file, rangeHeader, contentType, title, SelectAsWritten(rangeHeader, |file|), r)
    ensures rangeHeader.None? ==>
      && r.body == file && !r.warned
      && (forall c :: c in r.headerCalls ==> !c.Status?)
      && Put(ContentLength(|file|)) in r.headerCalls
  {
    if rangeHeader.None? {
      HeaderCallsContain(rangeHeader, |file|, contentType, title, SelectAsWritten(rangeHeader, |file|));
      AvailableFromStart(file);
    }
  }

  /**
   As written, a Range header that parses gets the 206 status and the parsed
   Content-Range, but the whole file and the whole file's length.
   */
  lemma AsWrittenParsed(file: seq<bv8>, rangeHeader: Option<string>, contentType: string, title: string, r: Response)
    requires Responds(file, rangeHeader, contentType, title, SelectAsWritten(rangeHeader, |file|), r)
    ensures rangeHeader.Some? && ParseRangeHeader(rangeHeader.value, |file|).span.Some? ==>
      var span := ParseRangeHeader(rangeHeader.value, |file|).span.value;
      && r.body == file && !r.warned
      && Status(PartialContentStatus) in r.headerCalls
      && Put(ContentRange(span, |file|)) in r.headerCalls
      && Put(ContentLength(|file|)) in r.headerCalls
  {
    if rangeHeader.Some? && ParseRangeHeader(rangeHeader.value, |file|).span.Some? {
      HeaderCallsContain(rangeHeader, |file|, contentType, title, SelectAsWritten(rangeHeader, |file|));
      AvailableFromStart(file);
    }
  }

  /** As written, a Range header that does not parse gets one byte, announced as one byte. */
  lemma AsWrittenUnparsed(file: seq<bv8>, rangeHeader: Option<string>, contentType: string, title: string, r: Response)
    requires Responds(file, rangeHeader, contentType, title, SelectAsWritten(rangeHeader, |file|), r)
    ensures rangeHeader.Some? && ParseRangeHeader(rangeHeader.value, |file|).span.None? ==>
      && r.body == file[..if |file| > 0 then 1 else 0]
      && (r.warned <==> |file| == 0)
      && Put(ContentLength(1)) in r.headerCalls
  {
    if rangeHeader.Some? && ParseRangeHeader(rangeHeader.value, |file|).span.None? {
      HeaderCallsContain(rangeHeader, |file|, contentType, title, SelectAsWritten(rangeHeader, |file|));
      AvailableFromStart(file);
    }
  }

  /** The download name is announced in Content-Disposition. */
  lemma AsWrittenNamesDownload(file: seq<bv8>, rangeHeader: Option<string>, contentType: string, title: string, r: Response)
    requires Responds(file, rangeHeader, contentType, title, SelectAsWritten(rangeHeader, |file|), r)
    ensures Put(ContentDisposition(title)) in r.headerCalls
  {
    HeaderCallsContain(rangeHeader, |file|, contentType, title, SelectAsWritten(rangeHeader, |file|));
  }

  /** Without a parsed range, the intended selection serves the whole file with its length. */
  lemma IntendedWholeCase(file: seq<bv8>, rangeHeader: Option<string>, contentType: string, title: string, r: Response)
    requires Responds(file, rangeHeader, contentType, title, SelectIntended(rangeHeader, |file|), r)
    ensures rangeHeader.None? || ParseRangeHeader(rangeHeader.value, |file|).span.None? ==>
      && r.body == file && !r.warned
      && Put(ContentLength(|file|)) in r.headerCalls
  {
    if rangeHeader.None? || ParseRangeHeader(rangeHeader.value, |file|).span.None? {
      var iv := SelectIntended(rangeHeader, |file|);
      assert iv == WholeFile(|file|);
      HeaderCallsContain(rangeHeader, |file|, contentType, title, iv);
      AvailableFromStart(file);
    }
  }

  /** With a parsed range, the intended response announces the parsed span and its length. */
  lemma IntendedRangeHeaders(file: seq<bv8>, rangeHeader: Option<string>, contentType: string, title: string, r: Response)
    requires Responds(file, rangeHeader, contentType, title, SelectIntended(rangeHeader, |file|), r)
    ensures rangeHeader.Some? && ParseRangeHeader(rangeHeader.value, |file|).span.Some? ==>
      var span := ParseRangeHeader(rangeHeader.value, |file|).span.value;
      && Put(ContentRange(span, |file|)) in r.headerCalls
      && Put(ContentLength(span.last - span.first + 1)) in r.headerCalls
  {
    if rangeHeader.Some? && ParseRangeHeader(rangeHeader.value, |file|).span.Some? {
      var span := ParseRangeHeader(rangeHeader.value, |file|).span.value;
      var iv := SelectIntended(rangeHeader, |file|);
      assert iv == Interval(span.first, span.last);
      HeaderCallsContain(rangeHeader, |file|, contentType, title, iv);
    }
  }

  /**
   With a parsed range, the intended response sends the parsed span, cut at
   end of file; a span inside the file is sent whole and without a warning.
   */
  lemma IntendedRangeBody(file: seq<bv8>, rangeHeader: Option<string>, r: Response)
    requires Delivered(file, SelectIntended(rangeHeader, |file|), r.body, r.warned)
    ensures rangeHeader.Some? && ParseRangeHeader(rangeHeader.value, |file|).span.Some? ==>
      var span := ParseRangeHeader(rangeHeader.value, |file|).span.value;
      && r.body == Available(file, span.first, span.last - span.first + 1)
      && (span.first <= span.last < |file| ==> r.body == file[span.first..span.last + 1] && !r.warned)
  {
    if rangeHeader.Some? && ParseRangeHeader(rangeHeader.value, |file|).span.Some? {
      var span := ParseRangeHeader(rangeHeader.value, |file|).span.value;
      assert SelectIntended(rangeHeader, |file|) == Interval(span.first, span.last);
    }
  }

  /**
   A completed intended copy whose byteRange is not negative is exactly as
   long as the Content-Length header says. A reversed span, such as
   `bytes=10-5`, sends an empty body under a negative Content-Length.
   */
  lemma CompletedBodyMatchesContentLength(file: seq<bv8>, rangeHeader: Option<string>, contentType: string, title: string, r: Response)
    requires Responds(file, rangeHeader, contentType, title, SelectIntended(rangeHeader, |file|), r)
    ensures !r.warned && ByteRange(SelectIntended(rangeHeader, |file|)) >= 0 ==> Put(ContentLength(|r.body|)) in r.headerCalls
    ensures ByteRange(SelectIntended(rangeHeader, |file|)) < 0 ==>
      r.body == [] && !r.warned && Put(ContentLength(ByteRange(SelectIntended(rangeHeader, |file|)))) in r.headerCalls
  {
    HeaderCallsContain(rangeHeader, |file|, contentType, title, SelectIntended(rangeHeader, |file|));
  }

  /**
   `serveFilePartial` as written. Without a Range header the whole file is
   sent; with one that parses, the 206 status and the parsed Content-Range are
   sent but so is the whole file, with the whole file's Content-Length; with
   one that does not parse, a single byte is announced and sent.
   */
  method ServeFilePartial(file: seq<bv8>, rangeHeader: Option<string>, fileTitle: string, baseName: string, contentType: string)
    returns (r: Response)
    ensures rangeHeader.None? ==>
      && r.body == file && !r.warned
      && (forall c :: c in r.headerCalls ==> !c.Status?)
      && Put(ContentLength(|file|)) in r.headerCalls
    ensures rangeHeader.Some? && ParseRangeHeader(rangeHeader.value, |file|).span.Some? ==>
      var span := ParseRangeHeader(rangeHeader.value, |file|).span.value;
      && r.body == file && !r.warned
      && Status(PartialContentStatus) in r.headerCalls
      && Put(ContentRange(span, |file|)) in r.headerCalls
      && Put(ContentLength(|file|)) in r.headerCalls
    ensures rangeHeader.Some? && ParseRangeHeader(rangeHeader.value, |file|).span.None? ==>
      && r.body == file[..if |file| > 0 then 1 else 0]
      && (r.warned <==> |file| == 0)
      && Put(ContentLength(1)) in r.headerCalls
    ensures Put(ContentDisposition(Title(fileTitle, baseName))) in r.headerCalls
    ensures r.headerCalls == HeaderCalls(rangeHeader, |file|, contentType, Title(fileTitle, baseName), SelectAsWritten(rangeHeader, |file|))
    ensures forall st :: Absent(ApplyAll(st, r.headerCalls).lines, "Cache-Control")
    ensures forall st :: Absent(ApplyAll(st, r.headerCalls).lines, "Pragma")
    ensures forall st :: Sole(ApplyAll(st, r.headerCalls).lines, ContentLength(ByteRange(SelectAsWritten(rangeHeader, |file|))))
    ensures forall st :: Sole(ApplyAll(st, r.headerCalls).lines, ContentDisposition(Title(fileTitle, baseName)))
    ensures Parsed(rangeHeader, |file|) ==> forall st ::
      RangeAnnounced(ApplyAll(st, r.headerCalls), ParseRangeHeader(rangeHeader.value, |file|).span.value, |file|)
    ensures !Parsed(rangeHeader, |file|) ==> forall st :: ApplyAll(st, r.headerCalls).status == st.status
  {
    var title := Title(fileTitle, baseName);
    var iv := SelectAsWritten(rangeHeader, |file|);
    r := Respond(file, rangeHeader, contentType, title, iv);
    AsWrittenNoHeader(file, rangeHeader, contentType, title, r);
    AsWrittenParsed(file, rangeHeader, contentType, title, r);
    AsWrittenUnparsed(file, rangeHeader, contentType, title, r);
    AsWrittenNamesDownload(file, rangeHeader, contentType, title, r);
    RespondsWithoutCaching(file, rangeHeader, contentType, title, iv, r);
    RespondsWithLength(file, rangeHeader, contentType, title, iv, r);
    RespondsWithRange(file, rangeHeader, contentType, title, iv, r);
  }

  /**
   `serveFilePartial` with the selection it evidently intends: the body is the
   span named in Content-Range, cut at end of file, and whenever the copy
   completes with a byteRange that is not negative, the body is exactly as
   long as Content-Length says. A reversed span sends an empty body under a
   negative Content-Length.
   */
  method ServeFilePartialIntended(file: seq<bv8>, rangeHeader: Option<string>, fileTitle: string, baseName: string, contentType: string)
    returns (r: Response)
    ensures rangeHeader.None? || ParseRangeHeader(rangeHeader.value, |file|).span.None? ==>
      && r.body == file && !r.warned
      && Put(ContentLength(|file|)) in r.headerCalls
    ensures rangeHeader.Some? && ParseRangeHeader(rangeHeader.value, |file|).span.Some? ==>
      var span := ParseRangeHeader(rangeHeader.value, |file|).span.value;
      && Put(ContentRange(span, |file|)) in r.headerCalls
      && Put(ContentLength(span.last - span.first + 1)) in r.headerCalls
    ensures rangeHeader.Some? && ParseRangeHeader(rangeHeader.value, |file|).span.Some? ==>
      var span := ParseRangeHeader(rangeHeader.value, |file|).span.value;
      && r.body == Available(file, span.first, span.last - span.first + 1)
      && (span.first <= span.last < |file| ==> r.body == file[span.first..span.last + 1] && !r.warned)
    ensures !r.warned && ByteRange(SelectIntended(rangeHeader, |file|)) >= 0 ==> Put(ContentLength(|r.body|)) in r.headerCalls
    ensures ByteRange(SelectIntended(rangeHeader, |file|)) < 0 ==>
      r.body == [] && !r.warned && Put(ContentLength(ByteRange(SelectIntended(rangeHeader, |file|)))) in r.headerCalls
    ensures r.headerCalls == HeaderCalls(rangeHeader, |file|, contentType, Title(fileTitle, baseName), SelectIntended(rangeHeader, |file|))
    ensures forall st :: Absent(ApplyAll(st, r.headerCalls).lines, "Cache-Control")
    ensures forall st :: Absent(ApplyAll(st, r.headerCalls).lines, "Pragma")
    ensures forall st :: Sole(ApplyAll(st, r.headerCalls).lines, ContentLength(ByteRange(SelectIntended(rangeHeader, |file|))))
    ensures forall st :: Sole(ApplyAll(st, r.headerCalls).lines, ContentDisposition(Title(fileTitle, baseName)))
    ensures Parsed(rangeHeader, |file|) ==> forall st ::
      RangeAnnounced(ApplyAll(st, r.headerCalls), ParseRangeHeader(rangeHeader.value, |file|).span.value, |file|)
    ensures !Parsed(rangeHeader, |file|) ==> forall st :: ApplyAll(st, r.headerCalls).status == st.status
  {
    var title := Title(fileTitle, baseName);
    var iv := SelectIntended(rangeHeader, |file|);
    r := Respond(file, rangeHeader, contentType, title, iv);
    IntendedWholeCase(file, rangeHeader, contentType, title, r);
    IntendedRangeHeaders(file, rangeHeader, contentType, title, r);
    IntendedRangeBody(file, rangeHeader, r);
    CompletedBodyMatchesContentLength(file, rangeHeader, contentType, title, r);
    RespondsWithoutCaching(file, rangeHeader, contentType, title, iv, r);
    RespondsWithLength(file, rangeHeader, contentType, title, iv, r);
    RespondsWithRange(file, rangeHeader, contentType, title, iv, r);
  }
}

=== FILE: text.dfy ===
/**
 Character-level helpers shared by the range parser and the header composer:
 ASCII digits, decimal values as PHP's `(int)` cast reads a digit string,
 decimal rendering as `sprintf('%d', …)` writes an integer, and ASCII case
 folding as a case-insensitive regular expression compares letters.

 Integers are unbounded here: PHP's 64-bit `(int)` saturation on very long
 digit strings is not modelled.
 */
module Text {
  import opened Optional

  predicate IsDigit(c: char) {
    '0' <= c <= '9'
  }

  predicate AllDigits(s: string) {
    forall i :: 0 <= i < |s| ==> IsDigit(s[i])
  }

  function DigitValue(c: char): (d: nat)
    requires IsDigit(c)
    ensures d < 10
  {
    c as int - '0' as int
  }

  function DigitChar(d: nat): (c: char)
    requires d < 10
    ensures IsDigit(c) && DigitValue(c) == d
  {
    ('0' as int + d) as char
  }

  /** The number a digit string denotes, most significant digit first. */
  function Value(s: string): nat
    requires AllDigits(s)
    decreases |s|
  {
    if |s| == 0 then 0 else Value(s[..|s| - 1]) * 10 + DigitValue(s[|s| - 1])
  }

  /** A digit string denotes zero exactly when every digit is `0`. */
  lemma {:induction false} ValueZero(s: string)
    requires AllDigits(s)
    ensures Value(s) == 0 <==> forall i :: 0 <= i < |s| ==> s[i] == '0'
    decreases |s|
  {
    if |s| > 0 {
      var init := s[..|s| - 1];
      ValueZero(init);
      assert forall i :: 0 <= i < |init| ==> init[i] == s[i];
    }
  }

  /** Shortest decimal rendering of a natural number. */
  function NatToString(n: nat): (s: string)
    ensures |s| > 0 && AllDigits(s)
    ensures |s| > 1 ==> s[0] != '0'
    decreases n
  {
    if n < 10 then [DigitChar(n)] else NatToString(n / 10) + [DigitChar(n % 10)]
  }

  /** `sprintf('%d', i)`: a minus sign in front of negative values. */
  function IntToString(i: int): (s: string)
    ensures |s| > 0
    ensures i >= 0 <==> s[0] != '-'
    ensures i >= 0 ==> s == NatToString(i)
    ensures i < 0 ==> s[1..] == NatToString(-i)
  {
    if i < 0 then "-" + NatToString(-i) else NatToString(i)
  }

  /** Reading back a rendered number gives the number. */
  lemma {:induction false} ValueOfNatToString(n: nat)
    ensures Value(NatToString(n)) == n
    decreases n
  {
    var s := NatToString(n);
    if n >= 10 {
      ValueOfNatToString(n / 10);
      assert s[..|s| - 1] == NatToString(n / 10);
    }
  }

  /** Leading zeros do not change the value, as with PHP's `(int) "007"`. */
  lemma {:induction false} ValueIgnoresLeadingZero(s: string)
    requires AllDigits(s)
    ensures AllDigits("0" + s) && Value("0" + s) == Value(s)
    decreases |s|
  {
    var t := "0" + s;
    assert AllDigits(t) by {
      forall i | 0 <= i < |t| ensures IsDigit(t[i]) {
        if i > 0 { assert t[i] == s[i - 1]; }
      }
    }
    if |s| > 0 {
      var u := s[..|s| - 1];
      ValueIgnoresLeadingZero(u);
      assert t[..|t| - 1] == "0" + u;
    }
  }

  /** ASCII lower-casing; every other character is left alone. */
  function Lower(c: char): char {
    if 'A' <= c <= 'Z' then (c as int + 32) as char else c
  }

  /** Equality up to ASCII case. */
  predicate SameIgnoringCase(a: string, b: string) {
    |a| == |b| && forall i :: 0 <= i < |a| ==> Lower(a[i]) == Lower(b[i])
  }

  lemma SameIgnoringCaseSymmetric(a: string, b: string)
    ensures SameIgnoringCase(a, b) == SameIgnoringCase(b, a)
  {
  }

  /** Length of the longest run of digits that starts at position i. */
  function DigitRun(s: string, i: nat): (n: nat)
    requires i <= |s|
    ensures i + n <= |s|
    ensures AllDigits(s[i..i + n])
    ensures i + n == |s| || !IsDigit(s[i + n])
    decreases |s| - i
  {
    if i < |s| && IsDigit(s[i]) then
      var n := DigitRun(s, i + 1);
      assert s[i..i + 1 + n] == [s[i]] + s[i + 1..i + 1 + n];
      1 + n
    else 0
  }

  /** A digit string followed by the end or by a non-digit is a maximal run. */
  lemma {:induction false} DigitRunOver(s: string, i: nat, d: string)
    requires i + |d| <= |s| && s[i..i + |d|] == d && AllDigits(d)
    requires i + |d| == |s| || !IsDigit(s[i + |d|])
    ensures DigitRun(s, i) == |d|
    decreases |d|
  {
    if |d| > 0 {
      assert s[i] == d[0];
      assert s[i + 1..i + 1 + |d[1..]|] == d[1..];
      DigitRunOver(s, i + 1, d[1..]);
    }
  }

  /** The digit run of `d` placed between `pre` and a non-digit (or the end). */
  lemma DigitRunIn(pre: string, d: string, post: string)
    requires AllDigits(d) && (post == [] || !IsDigit(post[0]))
    ensures DigitRun(pre + d + post, |pre|) == |d|
    ensures (pre + d + post)[|pre|..|pre| + |d|] == d
  {
    var s := pre + d + post;
    assert s[|pre|..|pre| + |d|] == d;
    DigitRunOver(s, |pre|, d);
  }

  /** The number written at position i and the position just after it, if a digit is there. */
  function ReadNat(s: string, i: nat): (r: Option<(nat, nat)>)
    requires i <= |s|
    ensures r.Some? ==> i < r.value.1 <= |s|
  {
    var n := DigitRun(s, i);
    if n == 0 then None else Some((Value(s[i..i + n]), i + n))
  }

  /** A rendered number between `pre` and a non-digit reads back as itself. */
  lemma ReadNatIn(pre: string, n: nat, post: string)
    requires post == [] || !IsDigit(post[0])
    ensures ReadNat(pre + NatToString(n) + post, |pre|) == Some((n, |pre| + |NatToString(n)|))
  {
    var d := NatToString(n);
    DigitRunIn(pre, d, post);
    ValueOfNatToString(n);
  }

  /** A rendered number at the end of a string reads back as itself. */
  lemma ReadNatAtEnd(pre: string, n: nat)
    ensures ReadNat(pre + NatToString(n), |pre|) == Some((n, |pre + NatToString(n)|))
  {
    assert pre + NatToString(n) + [] == pre + NatToString(n);
    ReadNatIn(pre, n, []);
  }
}
